=== FILE: README.md ===
# Pongy: a verified model of the scorekeeper

Pongy keeps score for table-tennis games. The browser client holds a MobX store of games.
Each game has two players, speaks the score through speech synthesis and shows the score.
The client takes its commands from socket messages. A small Koa server broadcasts those
messages, and a mongoose schema checks the matches the server stores.

This project models the core of that system in Dafny and proves properties of the model:

- `Players` (players.dfy): a player whose score rises by one and falls by one, never below zero.
- `ScoringRules` (rules.dfy): the rules behind the game's computed values. These are game
  over, deuce, advantage, winner, the rotation of the server, the displayed score and the
  announcer's sentence, as pure functions of the two scores.
- `Games` (game.dfy): a `Game` class whose methods change the players' scores and the
  active flag in place. Each method is proved against value-level `GameState` functions.
  The announcer's speech is the `spoken` log: MobX's `autorun` adds the sentence for the
  new score every time a score changes.
- `GameStores` (store.dfy): the `GameStore` class. It holds the list of games, finds the
  current game, creates games, activates one by id and forwards score actions to the
  current game. Every method is proved against functions on the sequence of game states.
- `SocketDispatch` (dispatch.dfy): the client's socket handler. It parses a message, looks
  up `store[action]`, invokes only MobX actions, spreads `args` and swallows every
  exception. It uses JavaScript's own conversions for property keys and spreading.
- `MatchSchema` (match_schema.dfy): the server's score, winner and roster validators and
  the `findOneAndUpdate` hook.
- `ServerRoutes` (routes.dfy): the POST-body check, the health route, `/games/new` and
  `/games/update`.
- common.dfy: an `Option` type, JSON values, and the JavaScript conversions the core
  relies on (`String(v)`, `Number(v)`, truthiness, `===`).

## Model

| member | source | states |
|---|---|---|
| Players.ApplyKeepsScoreNonNegative | src/stores/objects/player.js:11-17 | An increment adds exactly one; a decrement subtracts one from a positive score and leaves zero at zero; the result is never negative. |
| Players.ReplayNeverNegative | src/stores/objects/player.js:9-17 | From a non-negative start, no sequence of increments and decrements ever makes the score negative. |
| Players.ReplayBoundedByIncrements | src/stores/objects/player.js:9-17 | After any sequence of actions, the score is at most the starting score plus the number of increments. |
| Players.Player.constructor | src/stores/objects/player.js:4-9 | A new player keeps its id and title and starts at score 0. |
| Players.Player.IncrementScore | src/stores/objects/player.js:11 | The score rises by exactly one. |
| Players.Player.DecrementScore | src/stores/objects/player.js:13-17 | The score falls by one when it is positive and is unchanged at zero. |
| ScoringRules.Winner | src/stores/objects/game.js:62-76 | Someone has won exactly when the game is over; player one has won iff they have at least 11 points and lead by 2, and likewise player two. |
| ScoringRules.GameOverCharacterization | src/stores/objects/game.js:58-60 | The game is over iff one player has at least 11 points and a lead of at least 2; both players never win at once. |
| ScoringRules.DeuceCharacterization | src/stores/objects/game.js:45-52 | It is deuce exactly when the scores are equal and at least 10. |
| ScoringRules.AdvantageCharacterization | src/stores/objects/game.js:78-91 | A player has the advantage iff they lead by exactly one and the other player has at least 10. |
| ScoringRules.PhasesAreExclusive | src/stores/objects/game.js:45-91 | A finished game has neither deuce nor advantage; deuce excludes advantage; outside deuce and advantage an unfinished game has no score above 10. |
| ScoringRules.EarlyGame | src/stores/objects/game.js:45-91 | While both scores are below 10 nobody has won, it is not deuce, nobody has the advantage and each player sees their own score. |
| ScoringRules.ServerRotation | src/stores/objects/game.js:197-201 | Player one serves first and at deuce; whenever someone has the advantage, player two serves; outside deuce and advantage, service changes every two points. |
| ScoringRules.DisplayMasksOnlyDeuceRegion | src/stores/objects/game.js:203-209 | The displayed score never exceeds the real one; it differs only for scores above 10; during deuce and advantage both players see the same score. |
| ScoringRules.AnnouncementPrecedence | src/stores/objects/game.js:135-154 | "New game" iff no point was played; advantage iff someone has the advantage; "Deuce" iff deuce; a win iff that player won; otherwise the call gives the server's score first, and it happens only in an unfinished game outside deuce and advantage. |
| ScoringRules.PhaseAnnouncementExamples | src/stores/objects/game.js:137-147 | The sentences for 0:0, 10:10, 11:10, 10:11 and 13:11 are "New game.", "Deuce", "Advantage Player one", "Advantage Player two" and "Player one wins.". |
| ScoringRules.CallAnnouncementExamples | src/stores/objects/game.js:148-154 | The calls for 0:1, 0:2 and 1:2 are "0, 1", "2, 0" and "2, 1", with the server's score first. |
| Games.InitialState | src/stores/objects/game.js:11-18 | A new game is inactive, has no points, and has announced "New game." once. |
| Games.Rescore | src/stores/objects/game.js:126-128 | After new scores the announcer is up to date exactly when it was before or a score changed. |
| Games.IncrementEffect | src/stores/objects/game.js:99-103 | Once the game is over an increment changes nothing; otherwise only player i's score rises, by one, and the new sentence is spoken; the active flag is kept. |
| Games.DecrementEffect | src/stores/objects/game.js:110-112 | A decrement lowers only player i's score, by one unless it is zero, even in a finished game. |
| Games.ActionsKeepAnnounced | src/stores/objects/game.js:99-128 | Increment, decrement and toggle all keep the last spoken sentence equal to the sentence for the current score. |
| Games.DecrementUndoesIncrement | src/stores/objects/game.js:99-112 | In an unfinished game, a decrement of the same player undoes an increment (scores and flag). |
| Games.LastPointWins | src/stores/objects/game.js:99-103 | A game that ends on an increment is won by the player who scored that point. |
| Games.ToggleTwiceRestores | src/stores/objects/game.js:121-123 | Toggling twice restores the state; a toggle without a value flips the flag; a toggle with a value sets it; toggling touches nothing else. |
| Games.PlayerIndex | src/stores/objects/game.js:101 | `players[key]` designates players 0 and 1 for the numbers 0 and 1 and for the strings "0" and "1", and no player for other strings, `undefined`, `null` or a key whose conversion throws. |
| Games.TryIncrement | src/stores/objects/game.js:99-103 | In a finished game the increment changes nothing and never throws; otherwise it throws exactly when the key designates no player. |
| Games.TryDecrement | src/stores/objects/game.js:110-112 | The decrement throws exactly when the key designates no player, whether or not the game is over. |
| Games.Game.constructor | src/stores/objects/game.js:11-18 | A new game is inactive, holds its id and two players, and has announced the sentence for their scores once. |
| Games.Game.ScoreTotal | src/stores/objects/game.js:35-37 | The total is zero exactly when neither player has a point. |
| Games.Game.Winner | src/stores/objects/game.js:62-76 | The winner's id is defined exactly when the game is over, and it is the id of the player with at least 11 points and a lead of 2. |
| Games.Game.PlayerAdvantage | src/stores/objects/game.js:78-91 | The id of the player who leads by one with the opponent at 10 or more, and nothing otherwise. |
| Games.Game.Server | src/stores/objects/game.js:54-56 | The initial server serves at 0:0 and at deuce, and player two serves whenever someone has the advantage; outside the deuce region the service alternates every two points, the initial server serving when the total is 0 or 1 modulo 4. |
| Games.Game.DisplayScoreFor | src/stores/objects/game.js:203-209 | During deuce and advantage the display is 10 for either player; otherwise it is that player's score, and an unknown id throws; it never exceeds the real score. |
| Games.Game.LastSentence | src/stores/objects/game.js:135-154 | The last sentence spoken is the announcement for the current scores. |
| Games.Game.IncrementScore | src/stores/objects/game.js:99-103 | The new game state is `TryIncrement` of the old one, and `threw` is set exactly when that throws; the announcer stays up to date. |
| Games.Game.DecrementScore | src/stores/objects/game.js:110-112 | The new game state is `TryDecrement` of the old one, and `threw` is set exactly when that throws; the announcer stays up to date. |
| Games.Game.ToggleIsActive | src/stores/objects/game.js:121-123 | Only the active flag changes: it is set to the given value, or flipped. |
| GameStores.ActivationFlags | src/stores/games.js:32-36 | Game j becomes active exactly when its id equals the requested id and that id is neither an array nor an object; with distinct ids at most one game becomes active. |
| GameStores.ActivationSelectsById | src/stores/games.js:32-40 | With distinct ids at most one game is active after activation, and it is the game `getGameById` finds; an array or object id activates none. |
| GameStores.CurrentOf | src/stores/games.js:12-14 | The current game is the first active game, and there is none exactly when no game is active. |
| GameStores.CreatedGameIsNeverCurrent | src/stores/games.js:22-30 | `createGame` appends one game in its initial state and changes no score. As written the new game is never current: on an empty store, or one whose only game was current, no game is current afterwards; when only the first of several games was current, the second becomes current. |
| GameStores.StoreActionsTouchOnlyCurrent | src/stores/games.js:17-18 | A store score action changes only the current game, exactly as the game's own action does; it throws exactly when no game is current or the game's action throws. |
| GameStores.CreateKeepsAnnounced | src/stores/games.js:22-30 | Creating a game keeps every announcer up to date. |
| GameStores.StoreIncrementKeepsAnnounced | src/stores/games.js:17 | The store's increment keeps every announcer up to date. |
| GameStores.StoreDecrementKeepsAnnounced | src/stores/games.js:18 | The store's decrement keeps every announcer up to date. |
| GameStores.NewGameIsActivated | src/stores/games.js:32-36 | With distinct ids, activating a new primitive id makes the appended game the only active one, and the first. |
| GameStores.GameStore.constructor | src/stores/games.js:8-10 | A new store holds no games. |
| GameStores.GameStore.CurrentGame | src/stores/games.js:12-14 | `currentGame` is the first game of the store whose active flag is set (an active game), and it is undefined exactly when no game is active. |
| GameStores.GameStore.GetGameById | src/stores/games.js:38-40 | A game of the store with that id, and undefined exactly when no game has it. |
| GameStores.GameStore.ToggleAll | src/stores/games.js:27 | Every game's flag is flipped and nothing else changes. |
| GameStores.GameStore.CreateGame | src/stores/games.js:22-30 | The games become `AfterCreate` of the old ones: the old games are all toggled and a fresh inactive game is appended. Its id is the given one, or the fresh uuid when none is given. |
| GameStores.GameStore.NewGame | src/stores/games.js:16 | The `newGame` action does exactly what `createGame` does. |
| GameStores.GameStore.CreateActiveGame | src/stores/games.js:22-36 | The corrected creation: with distinct ids and a new primitive id, the new game is the only active game and becomes `currentGame`. |
| GameStores.GameStore.SetActiveGame | src/stores/games.js:32-36 | Each game's flag becomes whether its id is `===` the given id; with distinct primitive ids, `currentGame` is then the game `getGameById` returns. |
| GameStores.GameStore.IncrementScore | src/stores/games.js:17 | The games become `StoreIncrement` of the old ones, and `threw` is set exactly when that throws. |
| GameStores.GameStore.DecrementScore | src/stores/games.js:18 | The games become `StoreDecrement` of the old ones, and `threw` is set exactly when that throws. |
| SocketDispatch.ActionNamed | src/App.js:42-43 | A store member is invoked exactly when its name is one of the three MobX actions. |
| SocketDispatch.SpreadKeepsEveryElement | src/App.js:44 | Spreading throws exactly on values that are not arrays or strings; an array spreads into its own elements; a string spreads into one string per character, and putting them back together gives the string. |
| SocketDispatch.OnlyActionsAreInvoked | src/App.js:20-46 | An unparsable message and `null` fail, and so does an `action` that cannot be converted to a property key. Otherwise a name that is not an action is ignored, an action with unspreadable `args` fails, and an action with spreadable `args` is invoked with the first argument. Only objects ever invoke anything. |
| SocketDispatch.NonActionMembersAreIgnored | src/App.js:40-46 | Messages naming `createGame`, `setActiveGame`, `getGameById`, `games` or `currentGame` do nothing, whatever their arguments. |
| SocketDispatch.EffectIsConfined | src/App.js:20-46 | A message that invokes nothing changes no game; a score action changes only the current game; `newGame` appends one game and changes no score. |
| SocketDispatch.EffectKeepsAnnounced | src/App.js:20-46 | No message leaves any game's announcer out of date. |
| SocketDispatch.MessageExamples | src/App.js:40-46 | Typical messages: `incrementScore` with `[0]` and `newGame` with `[]` invoke their actions; a missing `args` fails; an array message is ignored. |
| SocketDispatch.CoercedMessageExamples | src/App.js:42-44 | An action name wrapped in an array still names the action, and string `args` are spread into characters. |
| SocketDispatch.UnconvertibleActionFails | src/App.js:42-44 | An `action` object with its own `toString` key, even inside an array, makes `store[action]` throw and the message fails; an object with only its own `valueOf` key is ignored. |
| SocketDispatch.OnSocketMessage | src/App.js:20-28 | The handling is `Route` of the parsed message, and the store's games become `Effect` of the old ones; only `newGame` adds a game, whose id is the first argument or a fresh uuid. |
| MatchSchema.HasDuplicatesIffRepeated | server/src/schemas/match.js:9-10 | The set of an array is never larger than the array, and is smaller exactly when some value repeats. |
| MatchSchema.CheckPair | server/src/schemas/match.js:24-43 | The comparisons throw exactly when the serving score cannot be converted, or it is not negative and the receiving score cannot be converted; otherwise they give the checks' verdict on the pair. |
| MatchSchema.NumericScoreRule | server/src/schemas/match.js:15-47 | On two numbers the validator accepts exactly non-negative scores that are equal, both at most 11, or at most two apart; any other length and a missing score are rejected. |
| MatchSchema.ValidateScoreAcceptsValidScores | server/src/schemas/match.js:15-47 | Every valid score (two numbers obeying the rule) passes, and a pair of numbers passes only if it is valid. |
| MatchSchema.ValidateScoreAcceptsNonNumbers | server/src/schemas/match.js:15-47 | As written the validator also accepts `["a","b"]`, `"ab"` and `[true,null]`, none of which is a valid score. |
| MatchSchema.OwnToStringThrows | server/src/schemas/match.js:15-74 | A score element with its own `toString` key makes `validateScore` throw, as serving or receiving score and inside an array, except after a negative serving score, when the short-circuit `or` never converts the receiving one; the update hook then rejects the score. `getWinner` throws on it even when the serving side has won, but never converts a third element. An own `valueOf` alone passes as `NaN`. |
| MatchSchema.GetWinnerRule | server/src/schemas/match.js:49-74 | No score or an empty one has no winner. The servers win with exactly 11 against at most 9, or above 11 with a lead of exactly 2; the receivers likewise; below 11 on both sides nobody wins. |
| MatchSchema.WinnerAgreesWithClient | server/src/schemas/match.js:5-74 | The server's `WINNING_SCORE` is the client's 11, and on every valid score the server's winner is the client's: the servers win iff player one has won, the receivers iff player two has, and nobody iff the game is not over. |
| MatchSchema.AgreementNeedsValidScore | server/src/schemas/match.js:49-74 | At the invalid score 15:3 the client has a winner and the server none. |
| MatchSchema.ValidatePlayersRule | server/src/schemas/match.js:76-97 | A roster passes iff it is non-empty, has one player for singles and two for doubles, repeats nobody, and shares nobody with opponents who repeat nobody either. |
| MatchSchema.HookChecksScore | server/src/schemas/match.js:163-178 | An update without a score fails; an update whose score is two numbers passes exactly when they obey the score rule. |
| MatchSchema.UpdateQuery.constructor | server/src/schemas/match.js:163-164 | The query holds the given update. |
| MatchSchema.UpdateQuery.PreFindOneAndUpdate | server/src/schemas/match.js:163-178 | `matchType`, `servers` and `receivers` are removed from the update and every other field is kept; the hook reports an error exactly when the original score is missing, falsy, fails the validator or makes it throw (a `TypeError` on an element with its own `toString` key included). |
| ServerRoutes.NewGameMessage | server/src/routes/app.js:52-55 | The broadcast for a new game is itself a body that passes the POST check. |
| ServerRoutes.Context.constructor | server/src/routes/app.js:16-17 | A request starts with status 404 and no body. |
| ServerRoutes.Broadcaster.Broadcast | server/src/routes/app.js:52 | A broadcast appends the message to what was sent, in order. |
| ServerRoutes.ValidatePostRequest | server/src/routes/app.js:16-31 | Non-POST requests and POSTs with a truthy body, a string `action` and an array `args` go on; any other POST gets status 500 and the fixed message and goes no further. |
| ServerRoutes.HandleRequest | server/src/routes/app.js:4-70 | Routes match as the router's defaults do: GET routes also answer HEAD, and paths match in any letter case and with one trailing slash. `/_health` answers `{ok: true}` with status 200. `/games/new` broadcasts `newGame` with the fresh id and answers it with status 200. A valid `/games/update` is broadcast unchanged and answered `{success: true}` with status 200; an invalid one is answered 500 and not broadcast. Requests no route matches change nothing. |
| ServerRoutes.RouteMatchingExamples | server/src/routes/app.js:4-70 | `HEAD /games/new`, `GET /games/new/`, `GET /Games/New`, `GET /_HEALTH/` and `POST /GAMES/update/` reach their routes. `GET /games/new//`, `GET /games`, `POST /games/new` and `GET /games/update` reach none. |
| ServerRoutes.AcceptedBodiesReachTheClient | server/src/routes/app.js:16-31 | Every body the server accepts passes the client's routing step without failing: it invokes an action exactly when its `action` names one, with the first of its `args`. |
| ServerRoutes.AcceptedBodiesCanStillThrow | server/src/routes/app.js:16-31 | The routing step is all the server's check secures: the accepted body `{action: "incrementScore", args: [5]}` is routed to the store, where player 5 designates no player, and in every store state it changes no game. |
| ServerRoutes.NewGameMessageCreatesThatGame | server/src/routes/app.js:50-58 | The `/games/new` broadcast makes every client create a game with the id the route answers. |
| ServerRoutes.RejectedBodies | server/src/routes/app.js:22-30 | The server rejects string `args`, which the client would spread, as well as a missing body, `null` and a missing `args`. |
| JsonValues.StrictEqualsIsValueEqualityOnPrimitives | server/src/schemas/match.js:30 | `===` is value equality on primitives and never holds for arrays or objects. |
| Decimal.StringToNumberOfIntToString | server/src/schemas/match.js:24-43 | Reading back the decimal string of any integer gives that integer: `Number(String(n)) == n`. |
| JsonValues.ConversionThrowsExamples | server/src/schemas/match.js:24-43 | Converting an object with its own `toString` key throws, also nested in arrays; primitives, plain objects and an own `valueOf` key convert. |
| JsonValues.ToNumberOfNumerals | server/src/schemas/match.js:24-43 | In the score comparisons, a number, its decimal string and a one-element array holding it all convert to that number. |

## Left out

- Speech synthesis is not modelled. What the announcer speaks is recorded in each game's `spoken` log. MobX's `autorun` is modelled as adding one sentence whenever a score changes.
- `uuid.v4()` is not modelled. The ids it would draw are parameters (`freshId`, `oneId`, `twoId`), and the two player ids are assumed to differ.
- `JSON.parse` is not modelled. The socket handler receives the parse result, with `None` for a message that does not parse.
- `console.log`, the WebSocket connection and the React rendering of `App` are not modelled.
- Koa and koa-router internals are not modelled. The router is modelled by its default matching: a method, GET also standing for HEAD, and a path compared in ASCII lower case with an optional trailing slash. The default 404 status of unmatched requests comes from the context's initial state. The API router mounted before this one, static files and percent-encoded paths are not modelled. A HEAD response's body is kept in the model, though Koa sends none.
- Mongoose casting, `required`/`enum` checks, the field validators' wiring and the `$set` form of updates are not modelled. `validateScore`, `getWinner` and `validatePlayers` are modelled directly. `this.getUpdate()` is the update map itself.
- `toStringArray` is not modelled: player ids are already strings in the model.
- The virtuals `isSingles` and `isDoubles` (server/src/schemas/match.js:156-160) are not modelled.
- The debugging setters `setDeuce`, `setAdvantage` and `setWinner` (src/stores/objects/game.js:215-241) are not modelled.
- Numbers are integers. Fractions, `-0`, `Infinity` and overflow of JavaScript doubles are not modelled.
- Decimal.StringToNumber: strings with spaces, a `+` sign, a fraction, an exponent, a hex prefix or `Infinity` are treated as `NaN`, though `Number()` reads them.
- MatchSchema.ValidateScore: `length` is counted in characters, not UTF-16 code units.
- MatchSchema.GetWinner: its `null` and its `undefined` are both `NoWinner`. The match document is always present, so `!match` never holds.
- GameStores.GameStore.GetGameById: lodash's `find` with `{ id }` does a partial deep match on object ids. The model compares ids as whole values.
- JsonValues.StrictEquals: two arrays or objects are never `===`. Every socket message is parsed anew, so ids from two messages never share a reference. This does not cover `setActiveGame(game.id)` with the game's own array or object id, which would be `===` to itself. For that reason GameStores.GameStore.CreateActiveGame requires an id that is neither an array nor an object.
- Player ids are non-empty strings. `Announce`, `CurrentServer` and `DisplayScore` read `if (this.playerAdvantage)` (src/stores/objects/game.js:139, 198, 204) as "someone has the advantage". An empty id would be falsy there, but `uuid.v4()` never returns one.
- Games.PlayerIndex: only `"0"` and `"1"` designate players. The array's other properties, such as `length`, would throw on the call anyway.
- Players.Player.title is not used by any modelled operation.
- Message handling is modelled one message at a time. The ordering and interleaving of socket messages is not modelled.

## Findings

| source | as written | input that shows it | evidently intended | confidence | as-written member | corrected member |
|---|---|---|---|---|---|---|
| src/stores/games.js:22-30 | `createGame` flips every existing game's `isActive` and appends the new game inactive, so the new game never becomes `currentGame`. Its own tests (src/__tests__/stores/games.test.js:29-31 and 88-90) expect it to become active. | `createGame()` on an empty store: afterwards no game is current, and `incrementScore(0)` throws | the new game becomes the only active game | not executed | GameStores.CreatedGameIsNeverCurrent | GameStores.GameStore.CreateActiveGame |
| server/src/schemas/match.js:15-47 | `validateScore` checks only the length and the comparisons. Comparisons with `NaN` are false, so non-numeric entries pass. | `["a","b"]`, `"ab"` or `[true,null]` as a score | only an array of two numbers obeying the score rule passes | not executed | MatchSchema.ValidateScoreAcceptsNonNumbers | MatchSchema.ValidateScoreAcceptsValidScores |

The socket handler and the update hook keep the code as written. The corrected members are
what the agreement between client and server rests on: `GameStores.NewGameIsActivated`
proves the corrected creation, and `MatchSchema.WinnerAgreesWithClient` holds for the
corrected `MatchSchema.IsValidScore`.

=== FILE: common.dfy ===
/** An optional value: `None` stands for JavaScript's `undefined` (or `null`) result. */
module Options {

  datatype Option<+T> = None | Some(value: T)
}

/** Facts about sequences shared by the registries of games and of players. */
module Sequences {

  /** No two positions of `xs` hold the same value. */
  predicate Distinct<T(==)>(xs: seq<T>)
  {
    forall i, j :: 0 <= i < j < |xs| ==> xs[i] != xs[j]
  }
}

/** Decimal numerals, as JavaScript writes integers and reads numeric strings. */
module Decimal {
  import opened Options

  /** The decimal digit for `d`. */
  function DigitChar(d: nat): (c: char)
    requires d < 10
    ensures '0' <= c <= '9'
  {
    ('0' as int + d) as char
  }

  /** The value of a decimal digit. */
  function DigitValue(c: char): (d: nat)
    requires '0' <= c <= '9'
    ensures d < 10
  {
    (c as int - '0' as int) as nat
  }

  /** A natural number in decimal, without leading zeros. */
  function NatToString(n: nat): (s: string)
    ensures |s| >= 1
    ensures forall i :: 0 <= i < |s| ==> '0' <= s[i] <= '9'
    ensures n >= 10 <==> |s| >= 2
    decreases n
  {
    if n < 10 then [DigitChar(n)] else NatToString(n / 10) + [DigitChar(n % 10)]
  }

  /** An integer in decimal, as `String(n)` writes it. */
  function IntToString(n: int): string
  {
    if n < 0 then "-" + NatToString(-n) else NatToString(n)
  }

  /** Every character of `s` is a decimal digit. */
  predicate AllDigits(s: string)
  {
    forall i :: 0 <= i < |s| ==> '0' <= s[i] <= '9'
  }

  /** The value of a string of decimal digits. */
  function DigitsValue(s: string): nat
    requires AllDigits(s)
    decreases |s|
  {
    if s == [] then 0 else DigitsValue(s[..|s| - 1]) * 10 + DigitValue(s[|s| - 1])
  }

  /** `Number(s)` for the integer numerals this model reads: the empty string is zero, an
      optional minus sign followed by digits is their value, and anything else is not a
      number (`None`, JavaScript's `NaN`). */
  function StringToNumber(s: string): Option<int>
  {
    if s == [] then Some(0)
    else if AllDigits(s) then Some(DigitsValue(s))
    else if s[0] == '-' && |s| >= 2 && AllDigits(s[1..]) then Some(0 - DigitsValue(s[1..]) as int)
    else None
  }

  /** Reading back what `NatToString` writes gives the number. */
  lemma {:induction false} DigitsValueOfNatToString(n: nat)
    ensures DigitsValue(NatToString(n)) == n
    decreases n
  {
    var s := NatToString(n);
    if n < 10 {
      assert s[..|s| - 1] == [];
    } else {
      var q, r := n / 10, n % 10;
      assert s == NatToString(q) + [DigitChar(r)];
      assert s[..|s| - 1] == NatToString(q);
      DigitsValueOfNatToString(q);
      assert DigitsValue(s) == q * 10 + r;
    }
  }

  /** `Number(String(n)) == n` for every integer. */
  lemma {:induction false} StringToNumberOfIntToString(n: int)
    ensures StringToNumber(IntToString(n)) == Some(n)
  {
    var s := IntToString(n);
    if n < 0 {
      var t := NatToString(-n);
      assert s == "-" + t;
      assert s != [] && s[0] == '-' && !AllDigits(s);
      assert |s| >= 2 && s[1..] == t && AllDigits(t);
      DigitsValueOfNatToString(-n);
      assert DigitsValue(t) == -n;
      assert StringToNumber(s) == Some(0 - DigitsValue(t) as int);
    } else {
      assert s == NatToString(n) && s != [] && AllDigits(s);
      DigitsValueOfNatToString(n);
      assert StringToNumber(s) == Some(DigitsValue(s) as int);
    }
  }
}

/** Parsed JSON values, as they arrive in socket frames and HTTP request bodies. */
module JsonValues {
  import opened Options
  import opened Decimal

  /** A JSON value. Numbers are integers in this model. */
  datatype Json =
    | JNull
    | JBool(b: bool)
    | JNum(n: int)
    | JStr(s: string)
    | JArr(items: seq<Json>)
    | JObj(fields: map<string, Json>)

  /** Property access `value[key]`: only a JSON object has the named properties used here. */
  function Get(value: Json, key: string): (r: Option<Json>)
    ensures r.Some? <==> value.JObj? && key in value.fields
    ensures r.Some? ==> r.value == value.fields[key]
  {
    if value.JObj? && key in value.fields then Some(value.fields[key]) else None
  }

  /** The elements of an array joined with commas, as `Array.prototype.join` does. */
  function JoinWithCommas(parts: seq<string>): string
    decreases |parts|
  {
    if |parts| == 0 then ""
    else if |parts| == 1 then parts[0]
    else parts[0] + "," + JoinWithCommas(parts[1..])
  }

  /** Whether converting `v` to a primitive (for `String(v)`, a property key, `<` or `-`)
      throws a `TypeError`. Parsed JSON holds no functions, so an object with its own
      `toString` key has neither a callable `toString` nor a `valueOf` that yields a
      primitive; an array converts by joining its elements, so it throws exactly when one of
      them does. An object with only its own `valueOf` still converts, through the inherited
      `toString`. */
  predicate ConversionThrows(v: Json)
    decreases v
  {
    match v
    case JObj(fields) => "toString" in fields
    case JArr(items) => exists i :: 0 <= i < |items| && ConversionThrows(items[i])
    case _ => false
  }

  /** The conversion fails for an own `toString` key at any depth of arrays, and never for
      primitives, plain objects or an own `valueOf`. */
  lemma ConversionThrowsExamples()
    ensures ConversionThrows(JObj(map["toString" := JNum(1)]))
    ensures ConversionThrows(JArr([JNum(0), JArr([JObj(map["toString" := JNull])])]))
    ensures !ConversionThrows(JObj(map["valueOf" := JNum(1)]))
    ensures !ConversionThrows(JArr([JNull, JStr("toString"), JObj(map[])]))
    ensures !ConversionThrows(JNum(0)) && !ConversionThrows(JStr("toString"))
  {
    var inner := JArr([JObj(map["toString" := JNull])]);
    assert ConversionThrows(inner.items[0]);
    assert ConversionThrows(JArr([JNum(0), inner]).items[1]);
    var plain := JArr([JNull, JStr("toString"), JObj(map[])]);
    assert forall i :: 0 <= i < 3 ==> !ConversionThrows(plain.items[i]);
  }

  /** `String(v)`: the string a parsed value converts to (as a property key, say). An
      array is joined with commas, its `null` elements written as empty strings. Where
      `ConversionThrows(v)` holds the conversion throws instead, and callers check that
      first: the value here is then not used. */
  function KeyString(v: Json): string
    decreases v
  {
    match v
    case JNull => "null"
    case JBool(b) => if b then "true" else "false"
    case JNum(n) => IntToString(n)
    case JStr(s) => s
    case JArr(items) =>
      JoinWithCommas(seq(|items|, i requires 0 <= i < |items| => if items[i].JNull? then "" else KeyString(items[i])))
    case JObj(_) => "[object Object]"
  }

  /** Truthiness: `null`, `false`, `0` and the empty string are falsy; every other value,
      including every array and object, is truthy. */
  predicate Truthy(v: Json)
  {
    match v
    case JNull => false
    case JBool(b) => b
    case JNum(n) => n != 0
    case JStr(s) => s != []
    case _ => true
  }

  /** `Number(v)` (the conversion behind `<`, `>` and `-` on numbers): `null` is 0, booleans are
      0 and 1, strings and arrays are read through their string form, an object converts to
      "[object Object]" and so is not a number; `None` is `NaN`. Where `ConversionThrows(v)`
      holds the conversion throws instead, and callers check that first. */
  function ToNumber(v: Json): Option<int>
  {
    match v
    case JNull => Some(0)
    case JBool(b) => Some(if b then 1 else 0)
    case JNum(n) => Some(n)
    case JStr(s) => StringToNumber(s)
    case JArr(_) => StringToNumber(KeyString(v))
    case JObj(_) => None
  }

  /** A number, its decimal string and a one-element array holding it all convert to that
      number. */
  lemma {:induction false} ToNumberOfNumerals(n: int)
    ensures ToNumber(JNum(n)) == Some(n)
    ensures ToNumber(JStr(IntToString(n))) == Some(n)
    ensures ToNumber(JArr([JNum(n)])) == Some(n)
  {
    StringToNumberOfIntToString(n);
    assert KeyString(JArr([JNum(n)])) == JoinWithCommas([IntToString(n)]) == IntToString(n);
  }

  /** Strict equality `a === b` of two parsed values: primitives compare by value, while two
      arrays or objects are distinct references (every parse builds new ones). */
  predicate StrictEquals(a: Json, b: Json)
  {
    match a
    case JNull => b.JNull?
    case JBool(x) => b.JBool? && b.b == x
    case JNum(x) => b.JNum? && b.n == x
    case JStr(x) => b.JStr? && b.s == x
    case JArr(_) => false
    case JObj(_) => false
  }

  /** `===` agrees with value equality on primitives and never holds for structured values. */
  lemma StrictEqualsIsValueEqualityOnPrimitives(a: Json, b: Json)
    ensures StrictEquals(a, b) <==> a == b && !a.JArr? && !a.JObj?
  {
  }
}

=== FILE: dispatch.dfy ===
/** The socket message handler of the app (`onSocketMessage` and `handleSocketMessage` in
    src/App.js): a parsed message names a store member in `action` and carries its arguments
    in `args`; only members that are MobX actions are invoked, and every exception raised
    while handling a message is swallowed. */
module SocketDispatch {
  import opened Options
  import opened JsonValues
  import opened Games
  import opened GameStores

  /** The store's MobX actions: the only store members whose `isMobxAction` flag is set. */
  datatype StoreAction = NewGameAction | IncrementScoreAction | DecrementScoreAction

  /** The names of the store's actions. */
  const ActionNames: set<string> := {"newGame", "incrementScore", "decrementScore"}

  /** `store[name]`, when it is an action. Every other member (`games`, `currentGame`,
      `createGame`, `setActiveGame`, `getGameById`, inherited properties) and every unknown
      name gives none. */
  function ActionNamed(name: string): (r: Option<StoreAction>)
    ensures r.Some? <==> name in ActionNames
  {
    if name == "newGame" then Some(NewGameAction)
    else if name == "incrementScore" then Some(IncrementScoreAction)
    else if name == "decrementScore" then Some(DecrementScoreAction)
    else None
  }

  /** The key `store[action]` looks up; a missing `action` is `undefined`. */
  function PropertyKey(action: Option<Json>): string
  {
    match action
    case None => "undefined"
    case Some(v) => KeyString(v)
  }

  /** `...args`: the arguments an array or a string spreads into (a string into its
      characters); `undefined`, `null`, numbers, booleans and plain objects are not iterable
      and make the call throw (`None`). */
  function Spread(args: Option<Json>): Option<seq<Json>>
  {
    match args
    case Some(JArr(items)) => Some(items)
    case Some(JStr(s)) => Some(Characters(s))
    case _ => None
  }

  /** The one-character strings a string spreads into. */
  function Characters(s: string): seq<Json>
  {
    seq(|s|, i requires 0 <= i < |s| => JStr([s[i]]))
  }

  /** The strings of a sequence of parsed values put back together (non-strings add nothing). */
  function Joined(parts: seq<Json>): string
    decreases |parts|
  {
    if parts == [] then ""
    else Joined(parts[..|parts| - 1]) + (if parts[|parts| - 1].JStr? then parts[|parts| - 1].s else "")
  }

  /** Putting the characters of a string back together gives the string. */
  lemma {:induction false} JoinedCharacters(s: string)
    ensures Joined(Characters(s)) == s
    decreases |s|
  {
    if s != [] {
      var n := |s| - 1;
      var p := Characters(s);
      assert p[..n] == Characters(s[..n]);
      JoinedCharacters(s[..n]);
      assert p[n] == JStr([s[n]]);
      assert s == s[..n] + [s[n]];
    }
  }

  /** Spreading throws exactly on values that are not iterable, and loses nothing: an array
      spreads into its elements, and a string into as many one-character strings as it has
      characters, which put back together give the string. */
  lemma SpreadKeepsEveryElement(args: Option<Json>)
    ensures Spread(args).Some? <==> args.Some? && (args.value.JArr? || args.value.JStr?)
    ensures Spread(args).Some? && args.value.JArr? ==> Spread(args).value == args.value.items
    ensures Spread(args).Some? && args.value.JStr? ==>
      |Spread(args).value| == |args.value.s| && Joined(Spread(args).value) == args.value.s
  {
    if args.Some? && args.value.JStr? {
      JoinedCharacters(args.value.s);
    }
  }

  /** What handling a message comes to: nothing (`Ignored`), an exception that
      `onSocketMessage` swallows (`Failed`), or a call of a store action with its first
      argument (each action reads only its first parameter). */
  datatype Handling =
    | Ignored
    | Failed
    | Invoke(action: StoreAction, arg: Option<Json>)

  /** `onSocketMessage` up to the call: `parsed` is the result of `JSON.parse`, `None` when
      it threw. Destructuring `null` throws; any other value is looked up by its `action`
      property, whose conversion to a property key throws when it cannot be converted, and
      `args` is spread only once the action is known to be a store action. */
  function Route(parsed: Option<Json>): Handling
  {
    if parsed.None? || parsed.value.JNull? then Failed
    else
      var msg := parsed.value;
      var action := Get(msg, "action");
      if action.Some? && ConversionThrows(action.value) then Failed
      else match ActionNamed(PropertyKey(action))
      case None => Ignored
      case Some(a) =>
        match Spread(Get(msg, "args"))
        case None => Failed
        case Some(list) => Invoke(a, if list == [] then None else Some(list[0]))
  }

  /** The states of the store's games after handling `h`; an exception raised inside a store
      action happens before any change, so it leaves the games as they were. */
  function Effect(states: seq<GameState>, h: Handling): seq<GameState>
  {
    match h
    case Invoke(NewGameAction, _) => AfterCreate(states)
    case Invoke(IncrementScoreAction, key) =>
      (match StoreIncrement(states, key) case None => states case Some(after) => after)
    case Invoke(DecrementScoreAction, key) =>
      (match StoreDecrement(states, key) case None => states case Some(after) => after)
    case _ => states
  }

  /** Only the three store actions are ever invoked, exactly when the message is an object
      whose `action` names one of them and whose `args` can be spread; a message that does not
      parse, `null`, an `action` that cannot be converted to a property key, or an action with
      arguments that cannot be spread fails, and every other message is ignored. */
  lemma {:induction false} OnlyActionsAreInvoked(parsed: Option<Json>)
    ensures parsed.None? || parsed == Some(JNull) ==> Route(parsed) == Failed
    ensures parsed.Some? && !parsed.value.JNull? ==>
      var action := Get(parsed.value, "action");
      var throws := action.Some? && ConversionThrows(action.value);
      var name := PropertyKey(action);
      var args := Spread(Get(parsed.value, "args"));
      && (throws ==> Route(parsed) == Failed)
      && (!throws && name !in ActionNames ==> Route(parsed) == Ignored)
      && (!throws && name in ActionNames && args.None? ==> Route(parsed) == Failed)
      && (!throws && name in ActionNames && args.Some? ==>
            Route(parsed) == Invoke(ActionNamed(name).value, if args.value == [] then None else Some(args.value[0])))
    ensures Route(parsed).Invoke? ==> parsed.Some? && parsed.value.JObj?
    ensures Route(parsed).Invoke? && Route(parsed).action == NewGameAction ==> PropertyKey(Get(parsed.value, "action")) == "newGame"
    ensures Route(parsed).Invoke? && Route(parsed).action == IncrementScoreAction ==> PropertyKey(Get(parsed.value, "action")) == "incrementScore"
    ensures Route(parsed).Invoke? && Route(parsed).action == DecrementScoreAction ==> PropertyKey(Get(parsed.value, "action")) == "decrementScore"
  {
    if parsed.Some? && !parsed.value.JNull? && !parsed.value.JObj? {
      assert Get(parsed.value, "action").None?;
      assert "undefined" !in ActionNames;
    }
  }

  /** Store members that are not actions are never invoked, whatever the arguments. */
  lemma NonActionMembersAreIgnored(fields: map<string, Json>)
    requires "action" in fields
    requires fields["action"] in {JStr("createGame"), JStr("setActiveGame"), JStr("getGameById"), JStr("games"), JStr("currentGame")}
    ensures Route(Some(JObj(fields))) == Ignored
  {
    var name := fields["action"].s;
    assert PropertyKey(Get(JObj(fields), "action")) == name;
  }

  /** A message that is not an invocation leaves every game as it was; a score action changes
      at most the current game; `newGame` appends one game and changes no score. */
  lemma {:induction false} EffectIsConfined(states: seq<GameState>, h: Handling)
    ensures !h.Invoke? ==> Effect(states, h) == states
    ensures h.Invoke? && h.action != NewGameAction ==>
      && |Effect(states, h)| == |states|
      && forall j :: 0 <= j < |states| && Some(j) != CurrentOf(states) ==> Effect(states, h)[j] == states[j]
    ensures h.Invoke? && h.action == NewGameAction ==>
      && |Effect(states, h)| == |states| + 1
      && forall j :: 0 <= j < |states| ==>
           Effect(states, h)[j].one == states[j].one && Effect(states, h)[j].two == states[j].two
  {
    if h.Invoke? {
      match h.action
      case NewGameAction => CreatedGameIsNeverCurrent(states);
      case IncrementScoreAction => StoreActionsTouchOnlyCurrent(states, h.arg);
      case DecrementScoreAction => StoreActionsTouchOnlyCurrent(states, h.arg);
    }
  }

  /** Whatever message arrives, every game's announcer stays up to date. */
  lemma {:induction false} EffectKeepsAnnounced(states: seq<GameState>, h: Handling)
    requires forall j :: 0 <= j < |states| ==> states[j].Announced()
    ensures forall j :: 0 <= j < |Effect(states, h)| ==> Effect(states, h)[j].Announced()
  {
    match h
    case Invoke(NewGameAction, _) => CreateKeepsAnnounced(states);
    case Invoke(IncrementScoreAction, key) =>
      if StoreIncrement(states, key).Some? {
        StoreIncrementKeepsAnnounced(states, key);
      }
    case Invoke(DecrementScoreAction, key) =>
      if StoreDecrement(states, key).Some? {
        StoreDecrementKeepsAnnounced(states, key);
      }
    case _ =>
  }

  /** How particular messages naming an action by a string are handled. */
  lemma MessageExamples()
    ensures Route(Some(JObj(map["action" := JStr("incrementScore"), "args" := JArr([JNum(0)])])))
      == Invoke(IncrementScoreAction, Some(JNum(0)))
    ensures Route(Some(JObj(map["action" := JStr("newGame"), "args" := JArr([])]))) == Invoke(NewGameAction, None)
    ensures Route(Some(JObj(map["action" := JStr("decrementScore")]))) == Failed
    ensures Route(Some(JArr([JStr("newGame")]))) == Ignored
  {
  }

  /** An `action` with its own `toString` key, even one naming a store action, makes the
      lookup throw, at any depth of arrays; one with only its own `valueOf` key is the
      property "[object Object]" and is ignored. */
  lemma UnconvertibleActionFails()
    ensures Route(Some(JObj(map["action" := JObj(map["toString" := JStr("newGame")]), "args" := JArr([])]))) == Failed
    ensures Route(Some(JObj(map["action" := JArr([JObj(map["toString" := JNull])])]))) == Failed
    ensures Route(Some(JObj(map["action" := JObj(map["valueOf" := JStr("newGame")]), "args" := JArr([])]))) == Ignored
  {
    var nested := JArr([JObj(map["toString" := JNull])]);
    assert ConversionThrows(nested.items[0]);
  }

  /** JavaScript's conversions let unusual messages through: an action name wrapped in an
      array names the same action, and `args` given as a string is spread into characters. */
  lemma CoercedMessageExamples()
    ensures Route(Some(JObj(map["action" := JArr([JStr("newGame")]), "args" := JArr([JNum(7)])])))
      == Invoke(NewGameAction, Some(JNum(7)))
    ensures Route(Some(JObj(map["action" := JStr("incrementScore"), "args" := JStr("10")])))
      == Invoke(IncrementScoreAction, Some(JStr("1")))
  {
    assert KeyString(JArr([JStr("newGame")])) == "newGame";
    assert Spread(Some(JStr("10"))).value[0] == JStr("1");
  }

  /** `onSocketMessage(msg)` on the app's store, where `parsed` is what `JSON.parse(msg)`
      gave, `freshId` the uuid `createGame` would draw for a missing id and `oneId`, `twoId`
      the uuids of the players of a game it creates. */
  method OnSocketMessage(store: GameStore, parsed: Option<Json>, freshId: string, oneId: string, twoId: string)
    returns (h: Handling)
    requires store.Valid() && oneId != twoId
    modifies store.Repr
    ensures h == Route(parsed)
    ensures store.Valid() && fresh(store.Repr - old(store.Repr))
    ensures store.States() == Effect(old(store.States()), h)
    ensures h.Invoke? && h.action == NewGameAction ==>
      && |store.games| == |old(store.games)| + 1
      && store.games[..|old(store.games)|] == old(store.games)
      && store.games[|old(store.games)|].id == (if h.arg.Some? then h.arg.value else JStr(freshId))
    ensures !(h.Invoke? && h.action == NewGameAction) ==> store.games == old(store.games) && store.Repr == old(store.Repr)
  {
    h := Route(parsed);
    match h
    case Invoke(NewGameAction, id) =>
      var game := store.NewGame(id, freshId, oneId, twoId);
      assert store.games[..|old(store.games)|] == old(store.games);
    case Invoke(IncrementScoreAction, key) =>
      var threw := store.IncrementScore(key);
    case Invoke(DecrementScoreAction, key) =>
      var threw := store.DecrementScore(key);
    case _ =>
  }
}

=== FILE: game.dfy ===
/** A game of two players (`Game` in src/stores/objects/game.js): the scores live in the two
    `Player` objects, `isActive` in the game, and every sentence the score announcer speaks
    is recorded in `spoken`. */
module Games {
  import opened Options
  import opened JsonValues
  import Decimal
  import Players
  import opened ScoringRules

  /** The observable state of a game: both scores, the active flag and what was spoken. */
  datatype GameState = GameState(one: nat, two: nat, isActive: bool, spoken: seq<string>)
  {
    /** The score of the player at the given index of `players`. */
    function ScoreAt(i: nat): nat
      requires i < 2
    {
      if i == 0 then one else two
    }

    /** The announcer is up to date: the last sentence spoken is the one for the scores. */
    predicate Announced()
    {
      spoken != [] && spoken[|spoken| - 1] == SentenceFor(one, two)
    }
  }

  /** The state of a new game: no points, inactive, and "New game." announced once. */
  function InitialState(): (s: GameState)
    ensures s.Announced() && s.spoken == ["New game."]
  {
    GameState(0, 0, false, [SentenceFor(0, 0)])
  }

  /** The state after new scores: when a score changed, the announcer (re-run by the
      `autorun` on every change of the scores it reads) speaks the sentence for them. */
  function Rescore(s: GameState, one: nat, two: nat): (r: GameState)
    ensures r.Announced() <==> s.Announced() || (one, two) != (s.one, s.two)
  {
    if (one, two) == (s.one, s.two) then s
    else s.(one := one, two := two, spoken := s.spoken + [SentenceFor(one, two)])
  }

  /** `incrementScore(i)`: one point for player `i`, unless the game is already over. */
  function AfterIncrement(s: GameState, i: nat): GameState
    requires i < 2
  {
    if IsGameOver(s.one, s.two) then s
    else if i == 0 then Rescore(s, s.one + 1, s.two)
    else Rescore(s, s.one, s.two + 1)
  }

  /** `decrementScore(i)`: player `i` loses a point (not below zero), even once the game is over. */
  function AfterDecrement(s: GameState, i: nat): GameState
    requires i < 2
  {
    if i == 0 then Rescore(s, Players.Apply(s.one, Players.Decrement), s.two)
    else Rescore(s, s.one, Players.Apply(s.two, Players.Decrement))
  }

  /** `toggleIsActive(explicit)`: set the flag when a value is given, flip it otherwise. */
  function AfterToggle(s: GameState, explicit: Option<bool>): GameState
  {
    s.(isActive := if explicit.Some? then explicit.value else !s.isActive)
  }

  /** An increment changes only player `i`'s score, by exactly one, and only while the
      game is not over; once the game is over it changes nothing. */
  lemma IncrementEffect(s: GameState, i: nat)
    requires i < 2
    ensures IsGameOver(s.one, s.two) ==> AfterIncrement(s, i) == s
    ensures !IsGameOver(s.one, s.two) ==>
      && AfterIncrement(s, i).ScoreAt(i) == s.ScoreAt(i) + 1
      && AfterIncrement(s, i).ScoreAt(1 - i) == s.ScoreAt(1 - i)
      && AfterIncrement(s, i).spoken == s.spoken + [SentenceFor(AfterIncrement(s, i).one, AfterIncrement(s, i).two)]
    ensures AfterIncrement(s, i).isActive == s.isActive
  {
  }

  /** A decrement changes only player `i`'s score, lowers it by one unless it is zero, and
      ignores whether the game is over. */
  lemma DecrementEffect(s: GameState, i: nat)
    requires i < 2
    ensures AfterDecrement(s, i).ScoreAt(i) == if s.ScoreAt(i) == 0 then 0 else s.ScoreAt(i) - 1
    ensures AfterDecrement(s, i).ScoreAt(1 - i) == s.ScoreAt(1 - i)
    ensures AfterDecrement(s, i).isActive == s.isActive
    ensures s.ScoreAt(i) == 0 ==> AfterDecrement(s, i) == s
  {
  }

  /** The index `players[key]` designates: the key converts to the property name "0" or "1"
      (the numbers 0 and 1, those strings, or a one-element array holding one of them); any
      other key, or none, designates no player, and neither does a key whose conversion
      throws. */
  function PlayerIndex(key: Option<Json>): (r: Option<nat>)
    ensures r.Some? ==> r.value < 2
    ensures forall i :: 0 <= i < 2 ==> (key == Some(JNum(i)) ==> r == Some(i))
    ensures key.Some? && key.value.JStr? ==> (r.Some? <==> key.value.s == "0" || key.value.s == "1")
    ensures key == Some(JStr("0")) ==> r == Some(0)
    ensures key == Some(JStr("1")) ==> r == Some(1)
    ensures key.None? || key == Some(JNull) ==> r.None?
    ensures key.Some? && ConversionThrows(key.value) ==> r.None?
  {
    assert Decimal.IntToString(0) == "0" && Decimal.IntToString(1) == "1";
    if key.None? || ConversionThrows(key.value) then None
    else
      var name := KeyString(key.value);
      if name == "0" then Some(0) else if name == "1" then Some(1) else None
  }

  /** `incrementScore(key)` on a game: no change once the game is over (the player is not
      even looked up); otherwise a `TypeError` (`None`) when `key` designates no player. */
  function TryIncrement(s: GameState, key: Option<Json>): (r: Option<GameState>)
    ensures IsGameOver(s.one, s.two) ==> r == Some(s)
    ensures r.None? <==> !IsGameOver(s.one, s.two) && PlayerIndex(key).None?
  {
    if IsGameOver(s.one, s.two) then Some(s)
    else match PlayerIndex(key)
      case None => None
      case Some(i) => Some(AfterIncrement(s, i))
  }

  /** `decrementScore(key)` on a game: a `TypeError` (`None`) whenever `key` designates no
      player, whether or not the game is over. */
  function TryDecrement(s: GameState, key: Option<Json>): (r: Option<GameState>)
    ensures r.None? <==> PlayerIndex(key).None?
  {
    match PlayerIndex(key)
    case None => None
    case Some(i) => Some(AfterDecrement(s, i))
  }

  /** Every action keeps the announcer up to date. */
  lemma ActionsKeepAnnounced(s: GameState, i: nat, explicit: Option<bool>)
    requires i < 2 && s.Announced()
    ensures AfterIncrement(s, i).Announced()
    ensures AfterDecrement(s, i).Announced()
    ensures AfterToggle(s, explicit).Announced()
  {
  }

  /** A decrement undoes an increment made while the game was not over. */
  lemma {:induction false} DecrementUndoesIncrement(s: GameState, i: nat)
    requires i < 2 && !IsGameOver(s.one, s.two)
    ensures AfterDecrement(AfterIncrement(s, i), i).one == s.one
    ensures AfterDecrement(AfterIncrement(s, i), i).two == s.two
    ensures AfterDecrement(AfterIncrement(s, i), i).isActive == s.isActive
  {
    IncrementEffect(s, i);
    DecrementEffect(AfterIncrement(s, i), i);
  }

  /** A game can only end on an increment, and the player who scored that point wins. */
  lemma {:induction false} LastPointWins(s: GameState, i: nat)
    requires i < 2 && !IsGameOver(s.one, s.two)
    requires IsGameOver(AfterIncrement(s, i).one, AfterIncrement(s, i).two)
    ensures Winner(AfterIncrement(s, i).one, AfterIncrement(s, i).two) == Some(if i == 0 then One else Two)
  {
    IncrementEffect(s, i);
  }

  /** Toggling without a value twice restores the flag; toggling never touches the scores. */
  lemma ToggleTwiceRestores(s: GameState)
    ensures AfterToggle(AfterToggle(s, None), None) == s
    ensures AfterToggle(s, None).isActive == !s.isActive
    ensures forall b :: AfterToggle(s, Some(b)).isActive == b
    ensures forall e :: AfterToggle(s, e).(isActive := s.isActive) == s
  {
  }

  /** A game: its id, the two players in fixed positions, the initial server, the active
      flag and the log of sentences spoken by the announcer. */
  class Game {
    const id: Json
    const playerOne: Players.Player
    const playerTwo: Players.Player
    const winningScore: int
    const initialServer: string
    var isActive: bool
    var spoken: seq<string>

    /** The players are two distinct objects with distinct ids, and the announcer is up to
        date. */
    ghost predicate Valid()
      reads this, playerOne, playerTwo
    {
      && playerOne != playerTwo
      && playerOne.id != playerTwo.id
      && winningScore == WinningScore
      && initialServer == playerOne.id
      && State().Announced()
    }

    /** The game's state as a value. */
    ghost function State(): GameState
      reads this, playerOne, playerTwo
    {
      GameState(playerOne.score, playerTwo.score, isActive, spoken)
    }

    /** `new Game(id, [one, two])`: inactive, and the announcer has run once. */
    constructor (id: Json, one: Players.Player, two: Players.Player)
      requires one != two && one.id != two.id
      ensures Valid()
      ensures this.id == id && playerOne == one && playerTwo == two
      ensures State() == GameState(one.score, two.score, false, [SentenceFor(one.score, two.score)])
    {
      this.id := id;
      playerOne := one;
      playerTwo := two;
      winningScore := WinningScore;
      initialServer := one.id;
      isActive := false;
      spoken := [SentenceFor(one.score, two.score)];
    }

    /** The player at index `i` of `players`. */
    function PlayerAt(i: nat): (p: Players.Player)
      requires i < 2
      ensures p == playerOne || p == playerTwo
    {
      if i == 0 then playerOne else playerTwo
    }

    /** The id of the player at a side. */
    function IdOf(s: Side): string
    {
      if s == One then playerOne.id else playerTwo.id
    }

    /** `scoreTotal`. */
    function ScoreTotal(): (r: nat)
      reads this, playerOne, playerTwo
      requires Valid()
      ensures r == 0 <==> playerOne.score == 0 && playerTwo.score == 0
    {
      playerOne.score + playerTwo.score
    }

    /** `winner`: the id of the player who has won, or undefined while the game is on. */
    function Winner(): (r: Option<string>)
      reads this, playerOne, playerTwo
      requires Valid()
      ensures r.Some? <==> IsGameOver(playerOne.score, playerTwo.score)
      ensures r == Some(playerOne.id) <==> playerOne.score >= WinningScore && playerOne.score >= playerTwo.score + 2
      ensures r == Some(playerTwo.id) <==> playerTwo.score >= WinningScore && playerTwo.score >= playerOne.score + 2
    {
      match ScoringRules.Winner(playerOne.score, playerTwo.score)
      case None => None
      case Some(s) => Some(IdOf(s))
    }

    /** `playerAdvantage`: the id of the player one point from winning in the deuce region. */
    function PlayerAdvantage(): (r: Option<string>)
      reads this, playerOne, playerTwo
      requires Valid()
      ensures r == Some(playerOne.id) <==> playerOne.score == playerTwo.score + 1 && playerTwo.score >= DeuceScore
      ensures r == Some(playerTwo.id) <==> playerTwo.score == playerOne.score + 1 && playerOne.score >= DeuceScore
      ensures r.Some? ==> r == Some(playerOne.id) || r == Some(playerTwo.id)
    {
      AdvantageCharacterization(playerOne.score, playerTwo.score);
      match ScoringRules.PlayerAdvantage(playerOne.score, playerTwo.score)
      case None => None
      case Some(s) => Some(IdOf(s))
    }

    /** `server`: the id of the player serving now; player one serves first. */
    function Server(): (r: string)
      reads this, playerOne, playerTwo
      requires Valid()
      ensures ScoreTotal() == 0 ==> r == initialServer
      ensures IsDeuce(playerOne.score, playerTwo.score) ==> r == initialServer
      ensures PlayerAdvantage().Some? ==> r == playerTwo.id
      ensures !InDeuceRegion(playerOne.score, playerTwo.score) ==>
        (r == initialServer <==> (playerOne.score + playerTwo.score) % 4 < 2)
    {
      ServerRotation(playerOne.score, playerTwo.score);
      IdOf(CurrentServer(playerOne.score, playerTwo.score))
    }

    /** `getDisplayScoreForPlayer(playerId)`: the deuce score while deuce or advantage is in
        play; otherwise the score of the player with that id, and a `TypeError` (`None`)
        when no player has it. */
    function DisplayScoreFor(playerId: string): (r: Option<int>)
      reads this, playerOne, playerTwo
      requires Valid()
      ensures InDeuceRegion(playerOne.score, playerTwo.score) ==> r == Some(DeuceScore)
      ensures !InDeuceRegion(playerOne.score, playerTwo.score) ==>
        r == if playerId == playerOne.id then Some(playerOne.score)
             else if playerId == playerTwo.id then Some(playerTwo.score)
             else None
      ensures r.Some? && playerId == playerOne.id ==> r.value <= playerOne.score
      ensures r.Some? && playerId == playerTwo.id ==> r.value <= playerTwo.score
    {
      DisplayMasksOnlyDeuceRegion(playerOne.score, playerTwo.score, One);
      DisplayMasksOnlyDeuceRegion(playerOne.score, playerTwo.score, Two);
      if InDeuceRegion(playerOne.score, playerTwo.score) then Some(DeuceScore)
      else if playerId == playerOne.id then Some(DisplayScore(playerOne.score, playerTwo.score, One))
      else if playerId == playerTwo.id then Some(DisplayScore(playerOne.score, playerTwo.score, Two))
      else None
    }

    /** The sentence the announcer last spoke, which is the one for the current score. */
    function LastSentence(): (r: string)
      reads this, playerOne, playerTwo
      requires Valid()
      ensures r == SentenceFor(playerOne.score, playerTwo.score)
    {
      spoken[|spoken| - 1]
    }

    /** `incrementScore(key)`: the player `players[key]` scores, unless the game is over;
        `threw` reports the `TypeError` raised when `key` designates no player. */
    method IncrementScore(key: Option<Json>) returns (threw: bool)
      requires Valid()
      modifies this`spoken, playerOne, playerTwo
      ensures Valid()
      ensures threw <==> TryIncrement(old(State()), key).None?
      ensures State() == if threw then old(State()) else TryIncrement(old(State()), key).value
    {
      threw := false;
      if !IsGameOver(playerOne.score, playerTwo.score) {
        var i := PlayerIndex(key);
        if i.None? {
          threw := true;
          return;
        }
        ghost var before := State();
        if i.value == 0 {
          playerOne.IncrementScore();
        } else {
          playerTwo.IncrementScore();
        }
        spoken := spoken + [SentenceFor(playerOne.score, playerTwo.score)];
        assert State() == Rescore(before, playerOne.score, playerTwo.score);
      }
    }

    /** `decrementScore(key)`: the player `players[key]` loses a point, whether or not the
        game is over; `threw` reports the `TypeError` raised when `key` designates no player. */
    method DecrementScore(key: Option<Json>) returns (threw: bool)
      requires Valid()
      modifies this`spoken, playerOne, playerTwo
      ensures Valid()
      ensures threw <==> TryDecrement(old(State()), key).None?
      ensures State() == if threw then old(State()) else TryDecrement(old(State()), key).value
    {
      var i := PlayerIndex(key);
      if i.None? {
        return true;
      }
      var before := PlayerAt(i.value).score;
      PlayerAt(i.value).DecrementScore();
      threw := false;
      if PlayerAt(i.value).score != before {
        spoken := spoken + [SentenceFor(playerOne.score, playerTwo.score)];
      }
    }

    /** `toggleIsActive(explicit)`: set `isActive` to the given value, or flip it. */
    method ToggleIsActive(explicit: Option<bool>)
      requires Valid()
      modifies this`isActive
      ensures Valid()
      ensures State() == AfterToggle(old(State()), explicit)
    {
      isActive := if explicit.Some? then explicit.value else !isActive;
    }
  }
}

=== FILE: match_schema.dfy ===
/** The server's rules for a stored match (server/src/schemas/match.js): the shape of a
    score, who has won it, the rosters of the two sides, and the check run before a match is
    updated. A score is `[serverScore, receiverScore]`, the serving side's points first. */
module MatchSchema {
  import opened Options
  import opened Sequences
  import opened Decimal
  import opened JsonValues
  import ScoringRules

  /** `WINNING_SCORE`. */
  const MatchWinningScore: int := 11

  // ---------------------------------------------------------------------------------------
  // Duplicates

  /** The values held by `xs`, as `new Set(xs)` collects them. */
  function ElementSet(xs: seq<string>): set<string>
  {
    set x | x in xs
  }

  /** `hasDuplicates`: the set of the values is smaller than the array. */
  predicate HasDuplicates(xs: seq<string>)
  {
    |ElementSet(xs)| != |xs|
  }

  /** A set never has more values than the array it is built from, and has fewer exactly when
      some value occurs twice. */
  lemma {:induction false} HasDuplicatesIffRepeated(xs: seq<string>)
    ensures |ElementSet(xs)| <= |xs|
    ensures HasDuplicates(xs) <==> !Distinct(xs)
    decreases |xs|
  {
    if xs != [] {
      var rest := xs[1..];
      HasDuplicatesIffRepeated(rest);
      assert ElementSet(xs) == {xs[0]} + ElementSet(rest) by {
        assert forall x :: x in xs <==> x == xs[0] || x in rest by {
          assert xs == [xs[0]] + rest;
        }
      }
      if xs[0] in rest {
        assert ElementSet(xs) == ElementSet(rest);
        var k :| 0 <= k < |rest| && rest[k] == xs[0];
        assert xs[k + 1] == xs[0];
      } else {
        assert |ElementSet(xs)| == |ElementSet(rest)| + 1;
        assert Distinct(xs) <==> Distinct(rest) by {
          if Distinct(rest) {
            forall i, j | 0 <= i < j < |xs|
              ensures xs[i] != xs[j]
            {
              if i > 0 {
                assert xs[i] == rest[i - 1] && xs[j] == rest[j - 1];
              } else {
                assert xs[j] == rest[j - 1];
              }
            }
          }
          if Distinct(xs) {
            forall i, j | 0 <= i < j < |rest|
              ensures rest[i] != rest[j]
            {
              assert rest[i] == xs[i + 1] && rest[j] == xs[j + 1];
            }
          }
        }
      }
    }
  }

  // ---------------------------------------------------------------------------------------
  // Scores, as written

  /** `x < c` on a converted number: `NaN` compares false. */
  predicate Below(x: Option<int>, c: int)
  {
    x.Some? && x.value < c
  }

  /** `x > c` on a converted number: `NaN` compares false. */
  predicate Above(x: Option<int>, c: int)
  {
    x.Some? && x.value > c
  }

  /** `Math.abs(x - y) <= 2`: false when either is `NaN`. */
  predicate WithinTwo(x: Option<int>, y: Option<int>)
  {
    x.Some? && y.Some? && -2 <= x.value - y.value <= 2
  }

  /** The checks of `validateScore` after destructuring `[serverScore, receiverScore]`. */
  predicate ValidPair(serverScore: Json, receiverScore: Json)
  {
    var a, b := ToNumber(serverScore), ToNumber(receiverScore);
    if Below(a, 0) || Below(b, 0) then false
    else if !StrictEquals(serverScore, receiverScore) && Above(a, MatchWinningScore) && !WithinTwo(a, b) then false
    else if !StrictEquals(serverScore, receiverScore) && Above(b, MatchWinningScore) && !WithinTwo(b, a) then false
    else true
  }

  /** The checks of `validateScore` on a destructured pair, with the conversions that can
      throw: `serverScore < 0` converts the serving score first, and only when that is not
      negative does `receiverScore < 0` convert the receiving one (the later comparisons
      convert the same values again, which then succeeds). `None` is the `TypeError`. */
  function CheckPair(serverScore: Json, receiverScore: Json): (r: Option<bool>)
    ensures r.None? <==>
      ConversionThrows(serverScore) || (!Below(ToNumber(serverScore), 0) && ConversionThrows(receiverScore))
    ensures r.Some? ==> r.value == ValidPair(serverScore, receiverScore)
  {
    if ConversionThrows(serverScore) then None
    else if Below(ToNumber(serverScore), 0) then Some(false)
    else if ConversionThrows(receiverScore) then None
    else Some(ValidPair(serverScore, receiverScore))
  }

  /** `validateScore(scoreArray = [])` on any value (`None` is `undefined`). Its `length` must
      be 2: an array of two elements or a string of two characters (destructured into them);
      `null` has no `length` and throws, and so does an object whose `length` is 2, as it
      cannot be destructured, and so does a pair whose comparison converts an element that
      cannot be converted. The result `None` stands for the thrown `TypeError`. */
  function ValidateScore(score: Option<Json>): Option<bool>
  {
    match (if score.None? then JArr([]) else score.value)
    case JNull => None
    case JArr(items) => if |items| != 2 then Some(false) else CheckPair(items[0], items[1])
    case JStr(s) => if |s| != 2 then Some(false) else CheckPair(JStr([s[0]]), JStr([s[1]]))
    case JObj(fields) => if "length" in fields && StrictEquals(fields["length"], JNum(2)) then None else Some(false)
    case _ => Some(false)
  }

  // ---------------------------------------------------------------------------------------
  // Scores, as intended

  /** The score rule on two numbers: neither negative, and within two points of each other
      once either exceeds the winning score. */
  predicate ValidNumbers(a: int, b: int)
  {
    a >= 0 && b >= 0 && (a > MatchWinningScore || b > MatchWinningScore ==> -2 <= a - b <= 2)
  }

  /** A valid score: an array of exactly two numbers that satisfy the score rule. */
  predicate IsValidScore(score: Option<Json>)
  {
    && score.Some? && score.value.JArr? && |score.value.items| == 2
    && score.value.items[0].JNum? && score.value.items[1].JNum?
    && ValidNumbers(score.value.items[0].n, score.value.items[1].n)
  }

  /** On pairs of numbers `validateScore` is exactly the score rule: any length other than 2
      and a missing score are rejected, a negative entry is rejected, equal scores are
      accepted, and unequal scores are accepted when both are at most eleven and otherwise
      exactly when they are at most two apart. */
  lemma {:induction false} NumericScoreRule(a: int, b: int)
    ensures ValidateScore(Some(JArr([JNum(a), JNum(b)]))) == Some(ValidNumbers(a, b))
    ensures ValidNumbers(a, b) <==>
      a >= 0 && b >= 0 && (a == b || (a <= MatchWinningScore && b <= MatchWinningScore) || -2 <= a - b <= 2)
    ensures ValidateScore(None) == Some(false)
    ensures forall items :: |items| != 2 ==> ValidateScore(Some(JArr(items))) == Some(false)
  {
    StrictEqualsIsValueEqualityOnPrimitives(JNum(a), JNum(b));
  }

  /** Every valid score passes `validateScore`, and a score passes it and is an array of two
      numbers exactly when it is valid. */
  lemma {:induction false} ValidateScoreAcceptsValidScores(score: Option<Json>)
    ensures IsValidScore(score) ==> ValidateScore(score) == Some(true)
    ensures IsValidScore(score) <==>
      && score.Some? && score.value.JArr? && |score.value.items| == 2
      && score.value.items[0].JNum? && score.value.items[1].JNum?
      && ValidateScore(score) == Some(true)
  {
    if score.Some? && score.value.JArr? && |score.value.items| == 2
      && score.value.items[0].JNum? && score.value.items[1].JNum?
    {
      var items := score.value.items;
      assert items == [JNum(items[0].n), JNum(items[1].n)];
      NumericScoreRule(items[0].n, items[1].n);
    }
  }

  /** As written, `validateScore` accepts scores that are not two numbers: two non-numeric
      strings, a two-character string, and `true` with `null`. */
  lemma ValidateScoreAcceptsNonNumbers()
    ensures ValidateScore(Some(JArr([JStr("a"), JStr("b")]))) == Some(true)
    ensures ValidateScore(Some(JStr("ab"))) == Some(true)
    ensures ValidateScore(Some(JArr([JBool(true), JNull]))) == Some(true)
    ensures !IsValidScore(Some(JArr([JStr("a"), JStr("b")])))
    ensures !IsValidScore(Some(JStr("ab")))
    ensures !IsValidScore(Some(JArr([JBool(true), JNull])))
  {
    assert StringToNumber("a").None? && StringToNumber("b").None?;
  }

  /** An element with its own `toString` key makes the comparisons throw: `validateScore`
      fails whether it is the serving or the receiving score, unless the serving score is
      already negative (the `||` then never converts the receiving one), and the update hook
      rejects such a score; `getWinner` throws too, even on a pair whose serving side would
      have won, while elements past the second are never converted. An own `valueOf` key alone
      converts to `NaN` and passes `validateScore`. */
  lemma OwnToStringThrows()
    ensures ValidateScore(Some(JArr([JObj(map["toString" := JNum(1)]), JNum(0)]))).None?
    ensures ValidateScore(Some(JArr([JNum(0), JObj(map["toString" := JNum(1)])]))).None?
    ensures ValidateScore(Some(JArr([JNum(-1), JObj(map["toString" := JNum(1)])]))) == Some(false)
    ensures ValidateScore(Some(JArr([JArr([JObj(map["toString" := JNull])]), JNum(0)]))).None?
    ensures ValidateScore(Some(JArr([JObj(map["valueOf" := JNum(1)]), JNum(0)]))) == Some(true)
    ensures !ScoreUpdateAccepted(map["score" := JArr([JObj(map["toString" := JNum(1)]), JNum(0)])])
    ensures GetWinner(Some([JObj(map["toString" := JNum(1)]), JNum(0)])) == Threw
    ensures GetWinner(Some([JNum(11), JObj(map["toString" := JNum(1)])])) == Threw
    ensures GetWinner(Some([JNum(11), JNum(0), JObj(map["toString" := JNum(1)])])) == WonBy(Servers)
  {
    var nested := JArr([JObj(map["toString" := JNull])]);
    assert ConversionThrows(nested.items[0]);
  }

  // ---------------------------------------------------------------------------------------
  // Winner

  /** The side `getWinner` names: the `servers` or the `receivers` of the match. */
  datatype Team = Servers | Receivers

  /** What `getWinner` yields: no winner (its `null` and its `undefined` alike), a side, or
      a thrown `TypeError`. */
  datatype WinnerOutcome = NoWinner | WonBy(team: Team) | Threw

  /** The element at `i`, or `undefined` past the end. */
  function ElementAt(items: seq<Json>, i: nat): Option<Json>
  {
    if i < |items| then Some(items[i]) else None
  }

  /** The number an element converts to; `undefined` is `NaN`. */
  function NumberOf(e: Option<Json>): Option<int>
  {
    if e.None? then None else ToNumber(e.value)
  }

  /** Whether converting an element throws; `undefined` converts to `NaN`. */
  predicate ElementThrows(e: Option<Json>)
  {
    e.Some? && ConversionThrows(e.value)
  }

  /** `x - y === 2` on converted numbers. */
  predicate LeadsByTwo(x: Option<int>, y: Option<int>)
  {
    x.Some? && y.Some? && x.value - y.value == 2
  }

  /** `getWinner(match)` for a match whose `score` array is `score` (`None` when absent).
      The serving side wins with exactly eleven against at most nine, or beyond eleven with a
      two-point lead; the receiving side likewise, checked after the serving side. The first
      comparison converts the serving score; once that succeeds, every path converts the
      receiving score before it returns (through `receiverScore < 11`, `receiverScore < 10`,
      `serverScore - receiverScore` or, at the latest, `receiverScore > 11`), so the call
      throws exactly when either of the two converts with a `TypeError`. */
  function GetWinner(score: Option<seq<Json>>): WinnerOutcome
  {
    if score.None? || score.value == [] then NoWinner
    else
      var s, r := ElementAt(score.value, 0), ElementAt(score.value, 1);
      var a, b := NumberOf(s), NumberOf(r);
      if ElementThrows(s) || ElementThrows(r) then Threw
      else if Below(a, MatchWinningScore) && Below(b, MatchWinningScore) then NoWinner
      else if s == Some(JNum(MatchWinningScore)) && Below(b, 10) then WonBy(Servers)
      else if Above(a, MatchWinningScore) && LeadsByTwo(a, b) then WonBy(Servers)
      else if r == Some(JNum(MatchWinningScore)) && Below(a, 10) then WonBy(Receivers)
      else if Above(b, MatchWinningScore) && LeadsByTwo(b, a) then WonBy(Receivers)
      else NoWinner
  }

  /** On two numbers, the serving side wins exactly with 11 against at most 9 or beyond 11
      with a lead of exactly two; the receiving side symmetrically; the two never hold
      together; and below eleven on both sides nobody has won. */
  lemma GetWinnerRule(a: int, b: int)
    ensures GetWinner(None) == NoWinner && GetWinner(Some([])) == NoWinner
    ensures a < MatchWinningScore && b < MatchWinningScore ==> GetWinner(Some([JNum(a), JNum(b)])) == NoWinner
    ensures GetWinner(Some([JNum(a), JNum(b)])) == WonBy(Servers) <==>
      (a == MatchWinningScore && b < 10) || (a > MatchWinningScore && a - b == 2)
    ensures GetWinner(Some([JNum(a), JNum(b)])) == WonBy(Receivers) <==>
      (b == MatchWinningScore && a < 10) || (b > MatchWinningScore && b - a == 2)
  {
  }

  /** The server and the client need the same points to win, and on every valid score the
      server's winner is the client's: the serving side (the first score) has won exactly
      when `isGameOver` names player one, the receiving side exactly when it names player two. */
  lemma {:induction false} WinnerAgreesWithClient(a: nat, b: nat)
    requires ValidNumbers(a, b)
    ensures MatchWinningScore == ScoringRules.WinningScore
    ensures GetWinner(Some([JNum(a), JNum(b)])) == WonBy(Servers) <==> ScoringRules.Winner(a, b) == Some(ScoringRules.One)
    ensures GetWinner(Some([JNum(a), JNum(b)])) == WonBy(Receivers) <==> ScoringRules.Winner(a, b) == Some(ScoringRules.Two)
    ensures GetWinner(Some([JNum(a), JNum(b)])) == NoWinner <==> !ScoringRules.IsGameOver(a, b)
  {
    GetWinnerRule(a, b);
  }

  /** Without a valid score the two rules part: at 15 to 3 the client has a winner and the
      server has none. */
  lemma AgreementNeedsValidScore()
    ensures !ValidNumbers(15, 3)
    ensures ScoringRules.Winner(15, 3) == Some(ScoringRules.One)
    ensures GetWinner(Some([JNum(15), JNum(3)])) == NoWinner
  {
  }

  // ---------------------------------------------------------------------------------------
  // Rosters

  /** `validatePlayers(matchType, opponentsArg = [], playersArg)` with the players' ids as
      strings; a missing or `null` list of opponents counts as empty. */
  function ValidatePlayers(matchType: string, opponents: Option<seq<string>>, players: seq<string>): bool
  {
    if |players| == 0 || HasDuplicates(players)
      || (matchType == "singles" && |players| != 1)
      || (matchType == "doubles" && |players| != 2)
    then false
    else !HasDuplicates(players + if opponents.None? then [] else opponents.value)
  }

  /** A roster passes exactly when it is non-empty, has one player for singles and two for
      doubles, repeats no player, and shares no player with the opponents, who repeat none
      either. */
  lemma {:induction false} ValidatePlayersRule(matchType: string, opponents: Option<seq<string>>, players: seq<string>)
    ensures var opps := if opponents.None? then [] else opponents.value;
      ValidatePlayers(matchType, opponents, players) <==>
        && |players| > 0
        && (matchType == "singles" ==> |players| == 1)
        && (matchType == "doubles" ==> |players| == 2)
        && Distinct(players) && Distinct(opps)
        && (forall i, j :: 0 <= i < |players| && 0 <= j < |opps| ==> players[i] != opps[j])
  {
    var opps := if opponents.None? then [] else opponents.value;
    var all := players + opps;
    HasDuplicatesIffRepeated(players);
    HasDuplicatesIffRepeated(all);
    assert forall i :: 0 <= i < |players| ==> all[i] == players[i];
    assert forall j :: 0 <= j < |opps| ==> all[|players| + j] == opps[j];
    if Distinct(players) && Distinct(opps) && (forall i, j :: 0 <= i < |players| && 0 <= j < |opps| ==> players[i] != opps[j]) {
      forall i, j | 0 <= i < j < |all|
        ensures all[i] != all[j]
      {
        if j < |players| {
        } else if i < |players| {
          assert all[j] == opps[j - |players|];
        } else {
          assert all[i] == opps[i - |players|] && all[j] == opps[j - |players|];
        }
      }
    }
    if Distinct(all) {
      forall i, j | 0 <= i < j < |opps|
        ensures opps[i] != opps[j]
      {
        assert all[|players| + i] == opps[i] && all[|players| + j] == opps[j];
      }
      forall i, j | 0 <= i < |players| && 0 <= j < |opps|
        ensures players[i] != opps[j]
      {
        assert all[i] == players[i] && all[|players| + j] == opps[j];
      }
    }
  }

  // ---------------------------------------------------------------------------------------
  // Update hook

  /** The fields an update may not change. */
  const ImmutableFields: set<string> := {"matchType", "servers", "receivers"}

  /** Whether the `findOneAndUpdate` hook lets an update through: its `score` is present,
      truthy and passes `validateScore` (a `TypeError` from it fails the update too). */
  predicate ScoreUpdateAccepted(update: map<string, Json>)
  {
    "score" in update && Truthy(update["score"]) && ValidateScore(Some(update["score"])) == Some(true)
  }

  /** An update without a score fails; an update whose score is two numbers passes exactly when
      they satisfy the score rule, whatever else it holds. */
  lemma {:induction false} HookChecksScore(update: map<string, Json>, a: int, b: int)
    ensures "score" !in update ==> !ScoreUpdateAccepted(update)
    ensures "score" in update && update["score"] == JArr([JNum(a), JNum(b)]) ==>
      (ScoreUpdateAccepted(update) <==> ValidNumbers(a, b))
  {
    NumericScoreRule(a, b);
  }

  /** The pending update of a `findOneAndUpdate` query (`this._update`). */
  class UpdateQuery {
    var update: map<string, Json>

    constructor (update: map<string, Json>)
      ensures this.update == update
    {
      this.update := update;
    }

    /** The `pre('findOneAndUpdate')` hook: the immutable fields are deleted from the update
        whatever happens next, and `error` reports the `Invalid score update` passed to
        `next` or the `TypeError` thrown by `validateScore`, either of which fails the
        update. */
    method PreFindOneAndUpdate() returns (error: bool)
      modifies this
      ensures update == old(update) - ImmutableFields
      ensures forall k :: k in update ==> k !in ImmutableFields && update[k] == old(update)[k]
      ensures error <==> !ScoreUpdateAccepted(old(update))
    {
      var score := if "score" in update then Some(update["score"]) else None;
      update := update - ImmutableFields;
      var isScoreValid := score.Some? && Truthy(score.value) && ValidateScore(score) == Some(true);
      error := !isScoreValid;
    }
  }
}

=== FILE: players.dfy ===
/** The score counter of one player (`Player` in src/stores/objects/player.js). */
module Players {

  /** The two score actions a player offers. */
  datatype ScoreAction = Increment | Decrement

  /** The score after one action: an increment adds one point, a decrement takes one
      away unless the score is already zero, in which case nothing happens. */
  function Apply(score: int, action: ScoreAction): (r: int)
  {
    match action
    case Increment => score + 1
    case Decrement => if score > 0 then score - 1 else score
  }

  /** The score after a sequence of actions, applied left to right. */
  function Replay(score: int, actions: seq<ScoreAction>): int
    decreases |actions|
  {
    if actions == [] then score else Replay(Apply(score, actions[0]), actions[1..])
  }

  /** How many increments a sequence of actions holds. */
  function Increments(actions: seq<ScoreAction>): nat
    decreases |actions|
  {
    if actions == [] then 0
    else (if actions[0] == Increment then 1 else 0) + Increments(actions[1..])
  }

  /** One action moves a non-negative score by at most one point and keeps it non-negative;
      a decrement at zero leaves it at zero. */
  lemma ApplyKeepsScoreNonNegative(score: int, action: ScoreAction)
    requires score >= 0
    ensures Apply(score, action) >= 0
    ensures action == Increment ==> Apply(score, action) == score + 1
    ensures action == Decrement ==> Apply(score, action) == if score == 0 then 0 else score - 1
  {
  }

  /** Starting from any non-negative score, no sequence of increments and decrements
      makes the score negative. */
  lemma {:induction false} ReplayNeverNegative(score: int, actions: seq<ScoreAction>)
    requires score >= 0
    ensures Replay(score, actions) >= 0
    decreases |actions|
  {
    if actions != [] {
      ApplyKeepsScoreNonNegative(score, actions[0]);
      ReplayNeverNegative(Apply(score, actions[0]), actions[1..]);
    }
  }

  /** A score never climbs by more than the number of increments applied to it. */
  lemma {:induction false} ReplayBoundedByIncrements(score: int, actions: seq<ScoreAction>)
    ensures Replay(score, actions) <= score + Increments(actions)
    decreases |actions|
  {
    if actions != [] {
      ReplayBoundedByIncrements(Apply(score, actions[0]), actions[1..]);
    }
  }

  /** A player: a fixed id and title and a score that the two actions update in place. */
  class Player {
    const id: string
    const title: string
    var score: nat

    /** A new player starts at score 0 and keeps the given id and title. */
    constructor (id: string, title: string)
      ensures this.id == id && this.title == title && score == 0
    {
      this.id := id;
      this.title := title;
      score := 0;
    }

    /** `incrementScore`: one more point. */
    method IncrementScore()
      modifies this
      ensures score == old(score) + 1 == Apply(old(score), Increment)
    {
      score := score + 1;
    }

    /** `decrementScore`: one point less, or no change at score zero. */
    method DecrementScore()
      modifies this
      ensures score == Apply(old(score), Decrement)
      ensures old(score) > 0 ==> score == old(score) - 1
      ensures old(score) == 0 ==> score == 0
    {
      if score > 0 {
        score := score - 1;
      }
    }
  }
}

=== FILE: routes.dfy ===
/** The server's HTTP routes (server/src/routes/app.js): every POST body is checked before it
    reaches a route, `/games/new` tells every socket client to create a game, and
    `/games/update` forwards a checked body to every socket client. */
module ServerRoutes {
  import opened Options
  import opened JsonValues
  import Decimal
  import Games
  import SocketDispatch

  /** The fixed response body of a rejected POST. */
  const RejectionMessage: string := "Failed to validate. Request body must include 'action' and 'args' properties."

  /** A POST body is acceptable when it is present and truthy, its `action` is a string and its
      `args` an array. */
  predicate WellFormedBody(body: Option<Json>)
  {
    && body.Some? && Truthy(body.value)
    && Get(body.value, "action").Some? && Get(body.value, "action").value.JStr?
    && Get(body.value, "args").Some? && Get(body.value, "args").value.JArr?
  }

  /** The message `/games/new` broadcasts for a game id. */
  function NewGameMessage(id: string): (m: Json)
    ensures WellFormedBody(Some(m))
  {
    JObj(map["action" := JStr("newGame"), "args" := JArr([JStr(id)])])
  }

  /** What a route writes as the response body. */
  datatype ResponseBody = NoBody | Text(text: string) | JsonBody(value: Json)

  /** The part of a Koa context the routes read and write. */
  class Context {
    const requestMethod: string
    const requestBody: Option<Json>
    var status: int
    var body: ResponseBody

    /** A request before any middleware ran: Koa's default status 404 and no body. */
    constructor (requestMethod: string, requestBody: Option<Json>)
      ensures this.requestMethod == requestMethod && this.requestBody == requestBody
      ensures status == 404 && body == NoBody
    {
      this.requestMethod := requestMethod;
      this.requestBody := requestBody;
      status := 404;
      body := NoBody;
    }
  }

  /** The socket server's broadcasts: every message sent to all clients, in order. */
  class Broadcaster {
    var sent: seq<Json>

    constructor ()
      ensures sent == []
    {
      sent := [];
    }

    /** `ctx.ws.broadcast(message)`. */
    method Broadcast(message: Json)
      modifies this
      ensures sent == old(sent) + [message]
    {
      sent := sent + [message];
    }
  }

  /** `validatePostRequest`: requests other than POST, and POSTs with an acceptable body, go on
      to the next handler (`callsNext`); any other POST is answered with status 500 and the
      fixed message, and goes no further. */
  method ValidatePostRequest(ctx: Context) returns (callsNext: bool)
    modifies ctx
    ensures callsNext <==> ctx.requestMethod != "POST" || WellFormedBody(ctx.requestBody)
    ensures callsNext ==> ctx.status == old(ctx.status) && ctx.body == old(ctx.body)
    ensures !callsNext ==> ctx.status == 500 && ctx.body == Text(RejectionMessage)
  {
    if ctx.requestMethod != "POST" {
      return true;
    }
    var b := ctx.requestBody;
    if b.Some? && Truthy(b.value) && Get(b.value, "action").Some? && Get(b.value, "action").value.JStr?
      && Get(b.value, "args").Some? && Get(b.value, "args").value.JArr?
    {
      return true;
    }
    ctx.status := 500;
    ctx.body := Text(RejectionMessage);
    callsNext := false;
  }

  /** ASCII lower case: the case folding by which a route path without other letters is
      matched case-insensitively. */
  function LowerAscii(c: char): char
  {
    if 'A' <= c <= 'Z' then (c as int + 32) as char else c
  }

  /** A path with every ASCII letter in lower case. */
  function Lowered(path: string): string
  {
    seq(|path|, i requires 0 <= i < |path| => LowerAscii(path[i]))
  }

  /** Whether a request path matches a route path (written in lower case) under the router's
      default options: letters match regardless of case, and one trailing slash is allowed. */
  predicate PathMatches(path: string, route: string)
  {
    Lowered(path) == route || Lowered(path) == route + "/"
  }

  /** The methods a `router.get` route answers: GET, and HEAD with it. */
  predicate IsGetLike(requestMethod: string)
  {
    requestMethod == "GET" || requestMethod == "HEAD"
  }

  /** The requests each route answers. */
  predicate IsHealthRequest(requestMethod: string, path: string)
  {
    IsGetLike(requestMethod) && PathMatches(path, "/_health")
  }

  predicate IsNewGameRequest(requestMethod: string, path: string)
  {
    IsGetLike(requestMethod) && PathMatches(path, "/games/new")
  }

  predicate IsUpdateRequest(requestMethod: string, path: string)
  {
    requestMethod == "POST" && PathMatches(path, "/games/update")
  }

  /** Which requests the routes answer: besides the exact paths, HEAD requests, paths in
      another case and paths with a trailing slash reach the GET routes; a second trailing
      slash, a prefix of a route or another method reaches none. */
  lemma RouteMatchingExamples()
    ensures IsNewGameRequest("GET", "/games/new") && IsNewGameRequest("HEAD", "/games/new")
    ensures IsNewGameRequest("GET", "/games/new/") && IsNewGameRequest("GET", "/Games/New")
    ensures IsHealthRequest("GET", "/_HEALTH/") && IsUpdateRequest("POST", "/GAMES/update/")
    ensures !IsNewGameRequest("GET", "/games/new//") && !IsNewGameRequest("GET", "/games")
    ensures !IsNewGameRequest("POST", "/games/new") && !IsUpdateRequest("GET", "/games/update")
  {
    assert Lowered("/games/new") == "/games/new";
    assert Lowered("/games/new/") == "/games/new/";
    assert Lowered("/Games/New") == "/games/new";
    assert Lowered("/_HEALTH/") == "/_health/";
    assert Lowered("/GAMES/update/") == "/games/update/";
    assert |Lowered("/games/new//")| == 12;
    assert |Lowered("/games")| == 6;
  }

  /** The router on a request for `path`: a route matching the path and method runs after
      `validatePostRequest` lets the request through, and answers with status 200; a request
      no route matches reaches no middleware of this router. `freshId` is the uuid
      `/games/new` draws. */
  method HandleRequest(ctx: Context, ws: Broadcaster, path: string, freshId: string)
    modifies ctx, ws
    ensures IsHealthRequest(ctx.requestMethod, path) ==>
      ws.sent == old(ws.sent) && ctx.status == 200 && ctx.body == JsonBody(JObj(map["ok" := JBool(true)]))
    ensures IsNewGameRequest(ctx.requestMethod, path) ==>
      ws.sent == old(ws.sent) + [NewGameMessage(freshId)] && ctx.status == 200 && ctx.body == Text(freshId)
    ensures IsUpdateRequest(ctx.requestMethod, path) && WellFormedBody(ctx.requestBody) ==>
      ws.sent == old(ws.sent) + [ctx.requestBody.value] && ctx.status == 200
      && ctx.body == JsonBody(JObj(map["success" := JBool(true)]))
    ensures IsUpdateRequest(ctx.requestMethod, path) && !WellFormedBody(ctx.requestBody) ==>
      ws.sent == old(ws.sent) && ctx.status == 500 && ctx.body == Text(RejectionMessage)
    ensures (!IsHealthRequest(ctx.requestMethod, path) && !IsNewGameRequest(ctx.requestMethod, path)
             && !IsUpdateRequest(ctx.requestMethod, path)) ==>
      ws.sent == old(ws.sent) && ctx.status == old(ctx.status) && ctx.body == old(ctx.body)
  {
    var health := IsHealthRequest(ctx.requestMethod, path);
    var newGame := IsNewGameRequest(ctx.requestMethod, path);
    var update := IsUpdateRequest(ctx.requestMethod, path);
    if !health && !newGame && !update {
      return;
    }
    var callsNext := ValidatePostRequest(ctx);
    if !callsNext {
      return;
    }
    // Koa answers 200 once a body is assigned to a response whose status was not set.
    ctx.status := 200;
    if health {
      ctx.body := JsonBody(JObj(map["ok" := JBool(true)]));
    } else if newGame {
      ws.Broadcast(NewGameMessage(freshId));
      ctx.body := Text(freshId);
    } else {
      ws.Broadcast(ctx.requestBody.value);
      ctx.body := JsonBody(JObj(map["success" := JBool(true)]));
    }
  }

  /** A body the server accepts passes the client's routing step without failing: the client
      ignores it or invokes the store action it names, exactly when that name is one of the
      store's actions, with the first of its `args`. */
  lemma {:induction false} AcceptedBodiesReachTheClient(body: Json)
    requires WellFormedBody(Some(body))
    ensures SocketDispatch.Route(Some(body)) != SocketDispatch.Failed
    ensures SocketDispatch.Route(Some(body)).Invoke? <==> body.fields["action"].s in SocketDispatch.ActionNames
    ensures SocketDispatch.Route(Some(body)).Invoke? ==>
      SocketDispatch.Route(Some(body)).arg == (if body.fields["args"].items == [] then None else Some(body.fields["args"].items[0]))
  {
    SocketDispatch.OnlyActionsAreInvoked(Some(body));
    assert SocketDispatch.PropertyKey(Get(body, "action")) == body.fields["action"].s;
  }

  /** An accepted body that names a score action for a player the game does not have. */
  const UnknownPlayerIncrement: Json := JObj(map["action" := JStr("incrementScore"), "args" := JArr([JNum(5)])])

  /** Passing the server's check does not make a store action succeed: the body above is
      accepted and routed to `incrementScore(5)`, which throws inside the store (there is no
      player 5) unless the current game is already over, and in no store state changes any
      game. */
  lemma AcceptedBodiesCanStillThrow()
    ensures WellFormedBody(Some(UnknownPlayerIncrement))
    ensures SocketDispatch.Route(Some(UnknownPlayerIncrement))
      == SocketDispatch.Invoke(SocketDispatch.IncrementScoreAction, Some(JNum(5)))
    ensures Games.PlayerIndex(Some(JNum(5))).None?
    ensures forall states :: SocketDispatch.Effect(states, SocketDispatch.Route(Some(UnknownPlayerIncrement))) == states
  {
    assert Decimal.IntToString(5) == "5";
    assert SocketDispatch.PropertyKey(Get(UnknownPlayerIncrement, "action")) == "incrementScore";
  }

  /** The message `/games/new` broadcasts makes every client create a game with the id the
      route responds with. */
  lemma NewGameMessageCreatesThatGame(id: string)
    ensures SocketDispatch.Route(Some(NewGameMessage(id))) == SocketDispatch.Invoke(SocketDispatch.NewGameAction, Some(JStr(id)))
  {
    var m := NewGameMessage(id);
    assert SocketDispatch.PropertyKey(Get(m, "action")) == "newGame";
  }

  /** The server is stricter than the client: `args` given as a string is rejected, though the
      client would spread it into characters; a missing body, `null` and a missing `args` are
      rejected too. */
  lemma RejectedBodies()
    ensures !WellFormedBody(Some(JObj(map["action" := JStr("incrementScore"), "args" := JStr("0")])))
    ensures SocketDispatch.Route(Some(JObj(map["action" := JStr("incrementScore"), "args" := JStr("0")])))
      == SocketDispatch.Invoke(SocketDispatch.IncrementScoreAction, Some(JStr("0")))
    ensures !WellFormedBody(None) && !WellFormedBody(Some(JNull))
    ensures !WellFormedBody(Some(JObj(map["action" := JStr("newGame")])))
  {
    var m := JObj(map["action" := JStr("incrementScore"), "args" := JStr("0")]);
    assert SocketDispatch.PropertyKey(Get(m, "action")) == "incrementScore";
    assert SocketDispatch.Spread(Get(m, "args")).value[0] == JStr("0");
  }
}

=== FILE: rules.dfy ===
/** The table-tennis rules behind every getter of `Game` (src/stores/objects/game.js):
    each is a function of the two players' scores `a` (player one) and `b` (player two). */
module ScoringRules {
  import opened Options
  import opened Decimal

  /** `winingScore`: the score a player needs to win a game. */
  const WinningScore: int := 11

  /** The deuce threshold, one point below the winning score. */
  const DeuceScore: int := WinningScore - 1

  /** A position in the game's `players` array: index 0 (player one) or 1 (player two). */
  datatype Side = One | Two
  {
    /** `_getOppositeServer`: the other position. */
    function Opposite(): Side
    {
      if this == One then Two else One
    }

    /** The index of this position in the `players` array. */
    function Index(): nat
    {
      if this == One then 0 else 1
    }
  }

  /** The score of the player at side `s`. */
  function ScoreOf(a: nat, b: nat, s: Side): nat
  {
    if s == One then a else b
  }

  /** `scoreTotal`. */
  function ScoreTotal(a: nat, b: nat): nat
  {
    a + b
  }

  /** `_hasWinningScore`. */
  predicate HasWinningScore(x: int)
  {
    x >= WinningScore
  }

  /** `_hasTwoPointLead`: `x` is at least two points ahead of `y`. */
  predicate HasTwoPointLead(x: int, y: int)
  {
    x >= y + 2
  }

  /** `_playerOneHasWon`. */
  predicate PlayerOneHasWon(a: nat, b: nat)
  {
    HasWinningScore(a) && HasTwoPointLead(a, b)
  }

  /** `_playerTwoHasWon`. */
  predicate PlayerTwoHasWon(a: nat, b: nat)
  {
    HasWinningScore(b) && HasTwoPointLead(b, a)
  }

  /** `isGameTied`. */
  predicate IsGameTied(a: nat, b: nat)
  {
    a == b
  }

  /** `isGameOver`. */
  predicate IsGameOver(a: nat, b: nat)
  {
    PlayerOneHasWon(a, b) || PlayerTwoHasWon(a, b)
  }

  /** `isDeuce`. */
  predicate IsDeuce(a: nat, b: nat)
  {
    !IsGameOver(a, b) && IsGameTied(a, b) && a >= DeuceScore && b >= DeuceScore
  }

  /** `winner`: the side that has won, if the game is over. */
  function Winner(a: nat, b: nat): (r: Option<Side>)
    ensures r.Some? <==> IsGameOver(a, b)
    ensures r == Some(One) <==> a >= WinningScore && a >= b + 2
    ensures r == Some(Two) <==> b >= WinningScore && b >= a + 2
  {
    if !IsGameOver(a, b) then None
    else if PlayerOneHasWon(a, b) then Some(One)
    else Some(Two)
  }

  /** `playerAdvantage`: the side that is one point from winning in the deuce region. */
  function PlayerAdvantage(a: nat, b: nat): (r: Option<Side>)
  {
    if IsGameTied(a, b) || IsGameOver(a, b) then None
    else if a <= DeuceScore && b <= DeuceScore then None
    else if a > b then Some(One)
    else Some(Two)
  }

  /** True while deuce or advantage is in play: serve alternates every point and the
      displayed scores are masked. */
  predicate InDeuceRegion(a: nat, b: nat)
  {
    PlayerAdvantage(a, b).Some? || IsDeuce(a, b)
  }

  /** `_getCurrentServer`: serve changes every two points, and every point once deuce or
      advantage is in play; player one is the initial server. */
  function CurrentServer(a: nat, b: nat): Side
  {
    var divisor := if InDeuceRegion(a, b) then 1 else 2;
    if ((a + b) / divisor) % 2 == 0 then One else Two
  }

  /** Player one serves first and at deuce, player two serves on every advantage, and in
      ordinary play serve changes every two points. */
  lemma ServerRotation(a: nat, b: nat)
    ensures a + b == 0 ==> CurrentServer(a, b) == One
    ensures IsDeuce(a, b) ==> CurrentServer(a, b) == One
    ensures PlayerAdvantage(a, b).Some? ==> CurrentServer(a, b) == Two
    ensures !InDeuceRegion(a, b) ==> (CurrentServer(a, b) == One <==> (a + b) % 4 < 2)
  {
    if PlayerAdvantage(a, b).Some? {
      AdvantageCharacterization(a, b);
    }
  }

  /** `getDisplayScoreForPlayer`, by position: the deuce score for both players while deuce
      or advantage is in play, the player's own score otherwise. */
  function DisplayScore(a: nat, b: nat, s: Side): nat
  {
    if InDeuceRegion(a, b) then DeuceScore else ScoreOf(a, b, s)
  }

  /** Game over holds exactly when one side has the winning score and a two-point lead,
      and the two winning conditions never hold together. */
  lemma GameOverCharacterization(a: nat, b: nat)
    ensures IsGameOver(a, b) <==> (a >= WinningScore && a >= b + 2) || (b >= WinningScore && b >= a + 2)
    ensures !(PlayerOneHasWon(a, b) && PlayerTwoHasWon(a, b))
  {
  }

  /** Deuce is a tie at ten points or more. */
  lemma DeuceCharacterization(a: nat, b: nat)
    ensures IsDeuce(a, b) <==> a == b && a >= DeuceScore
  {
  }

  /** Advantage goes to a side exactly when it leads by a single point and the other side
      has at least ten points. */
  lemma AdvantageCharacterization(a: nat, b: nat)
    ensures PlayerAdvantage(a, b) == Some(One) <==> a == b + 1 && b >= DeuceScore
    ensures PlayerAdvantage(a, b) == Some(Two) <==> b == a + 1 && a >= DeuceScore
  {
  }

  /** Every score pair is in exactly one phase: over, deuce, advantage, or ordinary play
      (in which case neither score exceeds ten). */
  lemma PhasesAreExclusive(a: nat, b: nat)
    ensures IsGameOver(a, b) ==> !IsDeuce(a, b) && PlayerAdvantage(a, b).None?
    ensures IsDeuce(a, b) ==> PlayerAdvantage(a, b).None?
    ensures !IsGameOver(a, b) && !InDeuceRegion(a, b) ==> a <= DeuceScore && b <= DeuceScore
  {
  }

  /** Before either side reaches ten points there is no winner, no deuce and no advantage,
      and the displayed scores are the raw scores. */
  lemma EarlyGame(a: nat, b: nat)
    requires a < DeuceScore && b < DeuceScore
    ensures !IsGameOver(a, b) && !IsDeuce(a, b)
    ensures Winner(a, b).None? && PlayerAdvantage(a, b).None?
    ensures DisplayScore(a, b, One) == a && DisplayScore(a, b, Two) == b
  {
  }

  /** The displayed score never exceeds the raw one, both sides display the same value when
      it is masked, and only a score of ten or more is ever masked. */
  lemma {:induction false} DisplayMasksOnlyDeuceRegion(a: nat, b: nat, s: Side)
    ensures DisplayScore(a, b, s) <= ScoreOf(a, b, s)
    ensures DisplayScore(a, b, s) != ScoreOf(a, b, s) ==> ScoreOf(a, b, s) > DeuceScore
    ensures InDeuceRegion(a, b) ==> DisplayScore(a, b, One) == DisplayScore(a, b, Two)
  {
    if PlayerAdvantage(a, b).Some? {
      AdvantageCharacterization(a, b);
    } else if IsDeuce(a, b) {
      DeuceCharacterization(a, b);
    }
  }

  /** What `_announceScores` says, before it is turned into words. */
  datatype Announcement =
    | NewGame
    | AdvantageTo(side: Side)
    | Deuce
    | WinFor(side: Side)
    | Call(serverScore: nat, receiverScore: nat)

  /** The sentence choice of `_announceScores`: the first matching case wins. */
  function Announce(a: nat, b: nat): Announcement
  {
    if a + b == 0 then NewGame
    else if PlayerAdvantage(a, b).Some? then AdvantageTo(PlayerAdvantage(a, b).value)
    else if IsDeuce(a, b) then Deuce
    else if PlayerOneHasWon(a, b) then WinFor(One)
    else if PlayerTwoHasWon(a, b) then WinFor(Two)
    else
      var server := CurrentServer(a, b);
      Call(ScoreOf(a, b, server), ScoreOf(a, b, server.Opposite()))
  }

  /** Each announcement is made for exactly the scores it names: "new game" for no points,
      advantage, deuce and win for those phases, and otherwise a call of the server's score
      first. */
  lemma AnnouncementPrecedence(a: nat, b: nat)
    ensures Announce(a, b) == NewGame <==> a + b == 0
    ensures forall s :: Announce(a, b) == AdvantageTo(s) <==> PlayerAdvantage(a, b) == Some(s)
    ensures Announce(a, b) == Deuce <==> a == b && a >= DeuceScore
    ensures forall s :: Announce(a, b) == WinFor(s) <==> Winner(a, b) == Some(s)
    ensures Announce(a, b).Call? ==> !IsGameOver(a, b) && !InDeuceRegion(a, b) && a + b > 0
    ensures Announce(a, b).Call? ==> Announce(a, b).serverScore == ScoreOf(a, b, CurrentServer(a, b))
    ensures Announce(a, b).Call? ==> Announce(a, b).receiverScore == ScoreOf(a, b, CurrentServer(a, b).Opposite())
  {
    AdvantageCharacterization(a, b);
    DeuceCharacterization(a, b);
    PhasesAreExclusive(a, b);
  }

  /** The positional label used in sentences. */
  function Label(s: Side): string
  {
    if s == One then "one" else "two"
  }

  /** The words spoken for an announcement. */
  function Sentence(r: Announcement): string
  {
    match r
    case NewGame => "New game."
    case AdvantageTo(s) => "Advantage Player " + Label(s)
    case Deuce => "Deuce"
    case WinFor(s) => "Player " + Label(s) + " wins."
    case Call(x, y) => NatToString(x) + ", " + NatToString(y)
  }

  /** The sentence announced for a score. */
  function SentenceFor(a: nat, b: nat): string
  {
    Sentence(Announce(a, b))
  }

  /** The phase sentences announced for scores named in the game's tests. */
  lemma PhaseAnnouncementExamples()
    ensures SentenceFor(0, 0) == "New game."
    ensures SentenceFor(10, 10) == "Deuce"
    ensures SentenceFor(11, 10) == "Advantage Player one"
    ensures SentenceFor(10, 11) == "Advantage Player two"
    ensures SentenceFor(13, 11) == "Player one wins."
  {
  }

  /** The score calls announced for scores named in the game's tests: the server's score
      first. */
  lemma CallAnnouncementExamples()
    ensures SentenceFor(0, 1) == "0, 1"
    ensures SentenceFor(0, 2) == "2, 0"
    ensures SentenceFor(1, 2) == "2, 1"
  {
    assert NatToString(0) == "0" && NatToString(1) == "1" && NatToString(2) == "2";
    assert CurrentServer(0, 1) == One && CurrentServer(0, 2) == Two && CurrentServer(1, 2) == Two;
  }
}

=== FILE: store.dfy ===
/** The registry of games (`GameStore` in src/stores/games.js): games in creation order, the
    current game being the first one whose `isActive` flag is set. */
module GameStores {
  import opened Options
  import opened Sequences
  import opened JsonValues
  import Players
  import opened ScoringRules
  import opened Games

  /** The first position holding `x` (lodash `find`), or none. */
  function FirstIndexOf<T(==)>(xs: seq<T>, x: T): (r: Option<nat>)
    ensures r.Some? ==> r.value < |xs| && xs[r.value] == x
    ensures r.Some? ==> forall j :: 0 <= j < r.value ==> xs[j] != x
    ensures r.None? <==> x !in xs
    decreases |xs|
  {
    if xs == [] then None
    else if xs[0] == x then Some(0)
    else match FirstIndexOf(xs[1..], x)
      case None => None
      case Some(k) => Some(k + 1)
  }

  /** The active flags `setActiveGame(id)` gives to games with the ids `ids`: set where the
      game's id is `=== id`, that is, where it equals an id that is neither an array nor an
      object; so distinct ids leave at most one game active. */
  function ActivationFlags(ids: seq<Json>, id: Json): (r: seq<bool>)
    ensures |r| == |ids|
    ensures forall j :: 0 <= j < |ids| ==> (r[j] <==> ids[j] == id && !id.JArr? && !id.JObj?)
    ensures Distinct(ids) ==> forall i, j :: 0 <= i < j < |r| ==> !(r[i] && r[j])
  {
    seq(|ids|, j requires 0 <= j < |ids| => StrictEquals(ids[j], id))
  }

  /** After `setActiveGame(id)` with distinct ids, at most one game is active, and the
      current game is the one `getGameById(id)` finds (for an id that is not an array or
      object; such an id activates no game). */
  lemma {:induction false} ActivationSelectsById(ids: seq<Json>, id: Json)
    requires Distinct(ids)
    ensures forall i, j :: 0 <= i < j < |ids| ==> !(ActivationFlags(ids, id)[i] && ActivationFlags(ids, id)[j])
    ensures !id.JArr? && !id.JObj? ==> FirstIndexOf(ActivationFlags(ids, id), true) == FirstIndexOf(ids, id)
    ensures id.JArr? || id.JObj? ==> FirstIndexOf(ActivationFlags(ids, id), true).None?
  {
    var flags := ActivationFlags(ids, id);
    forall j | 0 <= j < |ids|
      ensures flags[j] <==> ids[j] == id && !id.JArr? && !id.JObj?
    {
      StrictEqualsIsValueEqualityOnPrimitives(ids[j], id);
    }
    if !id.JArr? && !id.JObj? {
      FirstIndexOfAgree(flags, true, ids, id);
    } else {
      assert true !in flags;
    }
  }

  /** Two sequences that hold their searched-for values at the same positions have the
      same first position of them. */
  lemma {:induction false} FirstIndexOfAgree<T, U>(xs: seq<T>, x: T, ys: seq<U>, y: U)
    requires |xs| == |ys|
    requires forall j :: 0 <= j < |xs| ==> (xs[j] == x <==> ys[j] == y)
    ensures FirstIndexOf(xs, x) == FirstIndexOf(ys, y)
    decreases |xs|
  {
    if xs != [] && xs[0] != x {
      FirstIndexOfAgree(xs[1..], x, ys[1..], y);
    }
  }

  /** The `isActive` flags of a sequence of game states. */
  function FlagsOf(states: seq<GameState>): (r: seq<bool>)
    ensures |r| == |states| && forall j :: 0 <= j < |states| ==> r[j] == states[j].isActive
  {
    seq(|states|, j requires 0 <= j < |states| => states[j].isActive)
  }

  /** The position of `currentGame` among games in these states: the first active one. */
  function CurrentOf(states: seq<GameState>): (r: Option<nat>)
    ensures r.Some? ==> r.value < |states| && states[r.value].isActive
    ensures r.Some? ==> forall j :: 0 <= j < r.value ==> !states[j].isActive
    ensures r.None? <==> forall j :: 0 <= j < |states| ==> !states[j].isActive
  {
    FirstIndexOf(FlagsOf(states), true)
  }

  /** The states after `createGame` as written: every existing game's flag flipped, and a new
      game appended in its initial (inactive) state. */
  function AfterCreate(states: seq<GameState>): seq<GameState>
  {
    Toggled(states) + [InitialState()]
  }

  /** Every state with its `isActive` flag flipped. */
  function Toggled(states: seq<GameState>): (r: seq<GameState>)
    ensures |r| == |states| && forall j :: 0 <= j < |states| ==> r[j] == AfterToggle(states[j], None)
  {
    seq(|states|, j requires 0 <= j < |states| => AfterToggle(states[j], None))
  }

  /** The states after the store's `incrementScore(key)`: forwarded to the current game;
      `None` when there is no current game (a `TypeError` on `undefined`) or the game throws. */
  function StoreIncrement(states: seq<GameState>, key: Option<Json>): Option<seq<GameState>>
  {
    match CurrentOf(states)
    case None => None
    case Some(k) =>
      match TryIncrement(states[k], key)
      case None => None
      case Some(s) => Some(states[k := s])
  }

  /** The states after the store's `decrementScore(key)`, as `StoreIncrement`. */
  function StoreDecrement(states: seq<GameState>, key: Option<Json>): Option<seq<GameState>>
  {
    match CurrentOf(states)
    case None => None
    case Some(k) =>
      match TryDecrement(states[k], key)
      case None => None
      case Some(s) => Some(states[k := s])
  }

  /** `createGame` appends exactly one game in its initial state and changes no existing
      score; as written it never makes the new game current: on an empty store, or one whose
      only game was current, no game is current afterwards, and when just the first of
      several games was current, the second one becomes current. */
  lemma {:induction false} CreatedGameIsNeverCurrent(states: seq<GameState>)
    ensures |AfterCreate(states)| == |states| + 1
    ensures AfterCreate(states)[|states|] == InitialState()
    ensures forall j :: 0 <= j < |states| ==>
      AfterCreate(states)[j].one == states[j].one && AfterCreate(states)[j].two == states[j].two
    ensures CurrentOf(AfterCreate(states)) != Some(|states|)
    ensures |states| <= 1 && CurrentOf(states).Some? ==> CurrentOf(AfterCreate(states)).None?
    ensures states == [] ==> CurrentOf(AfterCreate(states)).None?
    ensures |states| >= 2 && CurrentOf(states) == Some(0) && (forall j :: 1 <= j < |states| ==> !states[j].isActive) ==>
      CurrentOf(AfterCreate(states)) == Some(1)
  {
    var r := AfterCreate(states);
    assert forall j :: 0 <= j < |states| ==> r[j] == AfterToggle(states[j], None);
    if |states| <= 1 && CurrentOf(states).Some? {
      assert !r[0].isActive && !r[|states|].isActive;
    }
    if |states| >= 2 && CurrentOf(states) == Some(0) && (forall j :: 1 <= j < |states| ==> !states[j].isActive) {
      assert !r[0].isActive && r[1].isActive;
    }
  }

  /** The store's score actions change nothing but the current game, and that one exactly as
      the game's own action does; they keep every game's announcer up to date. */
  lemma {:induction false} StoreActionsTouchOnlyCurrent(states: seq<GameState>, key: Option<Json>)
    ensures StoreIncrement(states, key).Some? ==>
      var k := CurrentOf(states).value;
      && |StoreIncrement(states, key).value| == |states|
      && StoreIncrement(states, key).value[k] == TryIncrement(states[k], key).value
      && forall j :: 0 <= j < |states| && j != k ==> StoreIncrement(states, key).value[j] == states[j]
    ensures StoreDecrement(states, key).Some? ==>
      var k := CurrentOf(states).value;
      && |StoreDecrement(states, key).value| == |states|
      && StoreDecrement(states, key).value[k] == TryDecrement(states[k], key).value
      && forall j :: 0 <= j < |states| && j != k ==> StoreDecrement(states, key).value[j] == states[j]
    ensures StoreIncrement(states, key).None? <==> CurrentOf(states).None? || TryIncrement(states[CurrentOf(states).value], key).None?
    ensures StoreDecrement(states, key).None? <==> CurrentOf(states).None? || PlayerIndex(key).None?
  {
  }

  /** Creating a game keeps every game's announcer up to date. */
  lemma {:induction false} CreateKeepsAnnounced(states: seq<GameState>)
    requires forall j :: 0 <= j < |states| ==> states[j].Announced()
    ensures forall j :: 0 <= j < |AfterCreate(states)| ==> AfterCreate(states)[j].Announced()
  {
    forall j | 0 <= j < |states|
      ensures AfterCreate(states)[j].Announced()
    {
      ActionsKeepAnnounced(states[j], 0, None);
    }
  }

  /** The store's `incrementScore` keeps every game's announcer up to date. */
  lemma {:induction false} StoreIncrementKeepsAnnounced(states: seq<GameState>, key: Option<Json>)
    requires forall j :: 0 <= j < |states| ==> states[j].Announced()
    requires StoreIncrement(states, key).Some?
    ensures forall j :: 0 <= j < |states| ==> StoreIncrement(states, key).value[j].Announced()
  {
    var k := CurrentOf(states).value;
    var after := StoreIncrement(states, key).value;
    if !IsGameOver(states[k].one, states[k].two) {
      ActionsKeepAnnounced(states[k], PlayerIndex(key).value, None);
    }
    assert after == states[k := TryIncrement(states[k], key).value];
  }

  /** The store's `decrementScore` keeps every game's announcer up to date. */
  lemma {:induction false} StoreDecrementKeepsAnnounced(states: seq<GameState>, key: Option<Json>)
    requires forall j :: 0 <= j < |states| ==> states[j].Announced()
    requires StoreDecrement(states, key).Some?
    ensures forall j :: 0 <= j < |states| ==> StoreDecrement(states, key).value[j].Announced()
  {
    var k := CurrentOf(states).value;
    var after := StoreDecrement(states, key).value;
    ActionsKeepAnnounced(states[k], PlayerIndex(key).value, None);
    assert after == states[k := TryDecrement(states[k], key).value];
  }

  /** A store action forwarded to the current game `k`, described position by position, is
      the store-level action. */
  lemma ForwardedIncrement(before: seq<GameState>, after: seq<GameState>, k: nat, key: Option<Json>, threw: bool)
    requires CurrentOf(before) == Some(k) && |after| == |before|
    requires threw <==> TryIncrement(before[k], key).None?
    requires after[k] == if threw then before[k] else TryIncrement(before[k], key).value
    requires forall j :: 0 <= j < |before| && j != k ==> after[j] == before[j]
    ensures threw <==> StoreIncrement(before, key).None?
    ensures after == if threw then before else StoreIncrement(before, key).value
  {
    if !threw {
      assert after == before[k := after[k]];
    }
  }

  /** As `ForwardedIncrement`, for a decrement. */
  lemma ForwardedDecrement(before: seq<GameState>, after: seq<GameState>, k: nat, key: Option<Json>, threw: bool)
    requires CurrentOf(before) == Some(k) && |after| == |before|
    requires threw <==> TryDecrement(before[k], key).None?
    requires after[k] == if threw then before[k] else TryDecrement(before[k], key).value
    requires forall j :: 0 <= j < |before| && j != k ==> after[j] == before[j]
    ensures threw <==> StoreDecrement(before, key).None?
    ensures after == if threw then before else StoreDecrement(before, key).value
  {
    if !threw {
      assert after == before[k := after[k]];
    }
  }

  /** Appending an id not yet present keeps the ids distinct. */
  lemma NewIdKeepsDistinct(ids: seq<Json>, id: Json)
    requires Distinct(ids) && id !in ids
    ensures Distinct(ids + [id])
  {
  }

  /** With distinct ids and a new id that is neither an array nor an object, activating the new
      id makes the appended game the only active one, hence the current game. */
  lemma {:induction false} NewGameIsActivated(ids: seq<Json>, id: Json)
    requires Distinct(ids) && id !in ids && !id.JArr? && !id.JObj?
    ensures forall j :: 0 <= j <= |ids| ==> ActivationFlags(ids + [id], id)[j] == (j == |ids|)
    ensures FirstIndexOf(ActivationFlags(ids + [id], id), true) == Some(|ids|)
  {
    var all := ids + [id];
    forall j | 0 <= j <= |ids|
      ensures ActivationFlags(all, id)[j] == (j == |ids|)
    {
      StrictEqualsIsValueEqualityOnPrimitives(all[j], id);
      if j < |ids| {
        assert all[j] == ids[j];
      }
    }
    var flags := ActivationFlags(all, id);
    assert flags[|ids|] && true in flags;
    var r := FirstIndexOf(flags, true);
    assert r.Some? && flags[r.value];
  }

  /** The two games share no object: neither the game nor either of its players. */
  predicate Separate(g: Game, h: Game)
  {
    && g != h
    && g.playerOne != h.playerOne && g.playerOne != h.playerTwo
    && g.playerTwo != h.playerOne && g.playerTwo != h.playerTwo
  }

  /** `new Game(id, [new Player(oneId, 'Player One'), new Player(twoId, 'Player Two')])`. */
  method MakeGame(id: Json, oneId: string, twoId: string) returns (game: Game)
    requires oneId != twoId
    ensures fresh(game) && fresh(game.playerOne) && fresh(game.playerTwo)
    ensures game.Valid() && game.State() == InitialState()
    ensures game.id == id && game.playerOne.id == oneId && game.playerTwo.id == twoId
    ensures game.playerOne.title == "Player One" && game.playerTwo.title == "Player Two"
  {
    var one := new Players.Player(oneId, "Player One");
    var two := new Players.Player(twoId, "Player Two");
    game := new Game(id, one, two);
  }

  class GameStore {
    var games: seq<Game>
    ghost var Repr: set<object>

    /** Every game is valid and lies, with its players, in `Repr`; no two games share
        an object. */
    ghost predicate Valid()
      reads this, Repr
    {
      && this in Repr
      && (forall g :: g in games ==> g in Repr && g.playerOne in Repr && g.playerTwo in Repr && g.Valid())
      && (forall i, j :: 0 <= i < j < |games| ==> Separate(games[i], games[j]))
    }

    /** A new store holds no games. */
    constructor ()
      ensures Valid() && fresh(Repr) && games == []
    {
      games := [];
      Repr := {this};
    }

    /** The ids of the games, in order. */
    function Ids(): (r: seq<Json>)
      reads this
      ensures |r| == |games| && forall j :: 0 <= j < |games| ==> r[j] == games[j].id
    {
      var gs := games;
      seq(|gs|, j requires 0 <= j < |gs| => gs[j].id)
    }

    /** The `isActive` flags of the games, in order. */
    function ActiveFlags(): (r: seq<bool>)
      reads this, games
      ensures |r| == |games| && forall j :: 0 <= j < |games| ==> r[j] == games[j].isActive
    {
      var gs := games;
      seq(|gs|, j requires 0 <= j < |gs| reads gs => gs[j].isActive)
    }

    /** The games' states, in order. */
    ghost function States(): (r: seq<GameState>)
      requires Valid()
      reads this, Repr
      ensures |r| == |games| && forall j :: 0 <= j < |games| ==> r[j] == games[j].State()
    {
      var gs, footprint := games, Repr;
      seq(|gs|, j requires 0 <= j < |gs| && gs[j] in footprint && gs[j].playerOne in footprint && gs[j].playerTwo in footprint
                  reads footprint => gs[j].State())
    }

    /** The position of `currentGame`: the first game whose `isActive` flag is set. */
    function CurrentIndex(): (r: Option<nat>)
      reads this, games
      ensures r.Some? ==> r.value < |games| && games[r.value].isActive
      ensures r.Some? ==> forall j :: 0 <= j < r.value ==> !games[j].isActive
      ensures r.None? <==> forall j :: 0 <= j < |games| ==> !games[j].isActive
    {
      FirstIndexOf(ActiveFlags(), true)
    }

    /** `currentGame`: the first active game, or undefined when no game is active. */
    function CurrentGame(): (r: Option<Game>)
      reads this, games
      ensures r.Some? ==> r.value in games && r.value.isActive
      ensures r.None? <==> forall g :: g in games ==> !g.isActive
      ensures r.Some? <==> FirstIndexOf(ActiveFlags(), true).Some?
      ensures r.Some? ==> r.value == games[FirstIndexOf(ActiveFlags(), true).value]
    {
      match CurrentIndex()
      case None => None
      case Some(k) => Some(games[k])
    }

    /** The position of the first game with id `id`. */
    function IndexById(id: Json): (r: Option<nat>)
      reads this
      ensures r.Some? ==> r.value < |games| && games[r.value].id == id
      ensures r.Some? ==> forall j :: 0 <= j < r.value ==> games[j].id != id
      ensures r.None? <==> forall j :: 0 <= j < |games| ==> games[j].id != id
    {
      FirstIndexOf(Ids(), id)
    }

    /** `getGameById(id)`: the first game with that id, or undefined when none has it. */
    function GetGameById(id: Json): (r: Option<Game>)
      reads this
      ensures r.Some? ==> r.value in games && r.value.id == id
      ensures r.None? <==> forall g :: g in games ==> g.id != id
    {
      match IndexById(id)
      case None => None
      case Some(k) => Some(games[k])
    }

    /** The `forEach` of `createGame`: every game's `isActive` flag is flipped. */
    method ToggleAll()
      requires Valid()
      modifies Repr
      ensures Valid() && games == old(games) && Repr == old(Repr)
      ensures forall j :: 0 <= j < |games| ==> games[j].State() == AfterToggle(old(games[j].State()), None)
      ensures States() == Toggled(old(States()))
    {
      var i := 0;
      while i < |games|
        invariant 0 <= i <= |games|
        invariant games == old(games) && Repr == old(Repr)
        invariant Valid()
        invariant forall j :: 0 <= j < i ==> games[j].State() == AfterToggle(old(games[j].State()), None)
        invariant forall j :: i <= j < |games| ==> games[j].State() == old(games[j].State())
      {
        label Step:
        games[i].ToggleIsActive(None);
        OnlyGameChanged@Step(i);
        i := i + 1;
      }
    }

    /** `createGame(id)`: a fresh game with id `id` (a fresh uuid `freshId` when no id is
        given) and two fresh players titled "Player One" and "Player Two" is appended; before
        that, every existing game has its `isActive` flag flipped. The new game itself starts
        inactive. */
    method CreateGame(id: Option<Json>, freshId: string, oneId: string, twoId: string) returns (game: Game)
      requires Valid() && oneId != twoId
      modifies Repr
      ensures Valid() && fresh(Repr - old(Repr))
      ensures fresh(game) && games == old(games) + [game]
      ensures game.id == (if id.Some? then id.value else JStr(freshId))
      ensures game.playerOne.id == oneId && game.playerTwo.id == twoId
      ensures game.playerOne.title == "Player One" && game.playerTwo.title == "Player Two"
      ensures States() == AfterCreate(old(States()))
    {
      ghost var before := States();
      ToggleAll();
      assert States() + [InitialState()] == AfterCreate(before);
      game := MakeGame(if id.Some? then id.value else JStr(freshId), oneId, twoId);
      Append(game);
    }

    /** Appends a valid game that shares no object with the store. */
    method Append(game: Game)
      requires Valid() && game.Valid()
      requires game !in Repr && game.playerOne !in Repr && game.playerTwo !in Repr
      modifies this
      ensures Valid() && games == old(games) + [game]
      ensures Repr == old(Repr) + {game, game.playerOne, game.playerTwo}
      ensures States() == old(States()) + [game.State()]
    {
      ghost var before := States();
      forall j | 0 <= j < |games|
        ensures Separate(games[j], game)
      {
        assert games[j] in Repr && games[j].playerOne in Repr && games[j].playerTwo in Repr;
      }
      games := games + [game];
      Repr := Repr + {game, game.playerOne, game.playerTwo};
      assert Valid();
      assert forall j :: 0 <= j < |games| ==> games[j].State() == (before + [game.State()])[j];
    }

    /** `createGame` as its tests expect it: the new game is created and then made the only
        active game with `setActiveGame`, so that it becomes `currentGame`. */
    method CreateActiveGame(id: Option<Json>, freshId: string, oneId: string, twoId: string) returns (game: Game)
      requires Valid() && oneId != twoId && Distinct(Ids())
      requires var newId := if id.Some? then id.value else JStr(freshId);
        newId !in Ids() && !newId.JArr? && !newId.JObj?
      modifies Repr
      ensures Valid() && fresh(Repr - old(Repr))
      ensures fresh(game) && games == old(games) + [game]
      ensures game.id == (if id.Some? then id.value else JStr(freshId))
      ensures CurrentGame() == Some(game)
      ensures forall j :: 0 <= j < |games| ==> games[j].isActive == (j == |games| - 1)
    {
      ghost var oldIds := Ids();
      game := CreateGame(id, freshId, oneId, twoId);
      assert Ids() == oldIds + [game.id];
      NewIdKeepsDistinct(oldIds, game.id);
      SetActiveGame(game.id);
      NewGameIsActivated(oldIds, game.id);
      assert ActiveFlags() == ActivationFlags(Ids(), game.id);
    }

    /** `newGame(id)`: the store action that creates a game. */
    method NewGame(id: Option<Json>, freshId: string, oneId: string, twoId: string) returns (game: Game)
      requires Valid() && oneId != twoId
      modifies Repr
      ensures Valid() && fresh(Repr - old(Repr))
      ensures fresh(game) && games == old(games) + [game]
      ensures game.id == (if id.Some? then id.value else JStr(freshId))
      ensures game.playerOne.id == oneId && game.playerTwo.id == twoId
      ensures game.playerOne.title == "Player One" && game.playerTwo.title == "Player Two"
      ensures States() == AfterCreate(old(States()))
    {
      game := CreateGame(id, freshId, oneId, twoId);
    }

    /** `setActiveGame(id)`: every game's `isActive` becomes whether its id is `=== id`;
        nothing else changes. */
    method SetActiveGame(id: Json)
      requires Valid()
      modifies Repr
      ensures Valid() && games == old(games) && Repr == old(Repr)
      ensures forall j :: 0 <= j < |games| ==> games[j].State() == AfterToggle(old(games[j].State()), Some(StrictEquals(games[j].id, id)))
      ensures ActiveFlags() == ActivationFlags(Ids(), id)
      ensures Distinct(Ids()) && !id.JArr? && !id.JObj? ==> CurrentGame() == GetGameById(id)
    {
      var i := 0;
      while i < |games|
        invariant 0 <= i <= |games|
        invariant games == old(games) && Repr == old(Repr)
        invariant Valid()
        invariant forall j :: 0 <= j < i ==> games[j].State() == AfterToggle(old(games[j].State()), Some(StrictEquals(games[j].id, id)))
        invariant forall j :: i <= j < |games| ==> games[j].State() == old(games[j].State())
      {
        label Step:
        games[i].ToggleIsActive(Some(StrictEquals(games[i].id, id)));
        OnlyGameChanged@Step(i);
        i := i + 1;
      }
      assert ActiveFlags() == ActivationFlags(Ids(), id);
      if Distinct(Ids()) && !id.JArr? && !id.JObj? {
        ActivationSelectsById(Ids(), id);
      }
    }

    /** When only game `k` and its players changed and game `k` is still valid, the store
        is still valid and every other game keeps its state. */
    twostate lemma OnlyGameChanged(k: nat)
      requires old(Valid()) && games == old(games) && Repr == old(Repr) && k < |games|
      requires games[k].Valid()
      requires forall o :: o in Repr && o != games[k] && o != games[k].playerOne && o != games[k].playerTwo ==> unchanged(o)
      ensures Valid()
      ensures forall j :: 0 <= j < |games| && j != k ==> games[j].State() == old(games[j].State())
    {
      forall j | 0 <= j < |games| && j != k
        ensures games[j].State() == old(games[j].State())
      {
        var g := games[j];
        assert if j < k then Separate(g, games[k]) else Separate(games[k], g);
        assert g in Repr && g.playerOne in Repr && g.playerTwo in Repr;
        assert unchanged(g) && unchanged(g.playerOne) && unchanged(g.playerTwo);
      }
    }

    /** `incrementScore(player)`: forwarded to the current game. Without a current game, or
        when the current game throws, `threw` is set and no game changes. */
    method IncrementScore(player: Option<Json>) returns (threw: bool)
      requires Valid()
      modifies Repr
      ensures Valid() && games == old(games) && Repr == old(Repr)
      ensures threw <==> StoreIncrement(old(States()), player).None?
      ensures States() == if threw then old(States()) else StoreIncrement(old(States()), player).value
    {
      ghost var before := States();
      assert FlagsOf(before) == ActiveFlags();
      var k := CurrentIndex();
      if k.None? {
        return true;
      }
      threw := games[k.value].IncrementScore(player);
      OnlyGameChanged(k.value);
      ghost var after := States();
      assert forall j :: 0 <= j < |games| && j != k.value ==> after[j] == before[j];
      ForwardedIncrement(before, after, k.value, player, threw);
    }

    /** `decrementScore(player)`: forwarded to the current game, as `IncrementScore` is. */
    method DecrementScore(player: Option<Json>) returns (threw: bool)
      requires Valid()
      modifies Repr
      ensures Valid() && games == old(games) && Repr == old(Repr)
      ensures threw <==> StoreDecrement(old(States()), player).None?
      ensures States() == if threw then old(States()) else StoreDecrement(old(States()), player).value
    {
      ghost var before := States();
      assert FlagsOf(before) == ActiveFlags();
      var k := CurrentIndex();
      if k.None? {
        return true;
      }
      threw := games[k.value].DecrementScore(player);
      OnlyGameChanged(k.value);
      ghost var after := States();
      assert forall j :: 0 <= j < |games| && j != k.value ==> after[j] == before[j];
      ForwardedDecrement(before, after, k.value, player, threw);
    }
  }
}
